=== FILE: README.md ===
# Amoryn front end — a Dafny model of the page logic

Amoryn is a dating web client written in React. Each page keeps its state in
React hooks and changes it in event handlers. This project models the page
logic of ten of those pages as pure Dafny functions:

- Chat, Dashboard and Match;
- VideoCall, Admin and TravelDating;
- Profile, Homepage, Signup and Subscription.

Each handler is a function from the page state to the next page state. It
also returns what the handler did outside the state: a navigation (`Route`),
the request body it posted, or the alert it raised.

Everything the handlers receive from outside becomes a parameter:

- the outcome of each HTTP request (success or failure, and the response data);
- the current time, as a timestamp or as a calendar date;
- the query parameters of the URL;
- the browser's ids for object URLs and intervals.

The project has one module per page and a few shared modules:

- `Wrappers`: `Option`, and `OrDefault` for JavaScript's `s || d` on strings, where an empty string also takes the default;
- `Seqs`: order-preserving filter, subsequences, toggling membership, removal at an index;
- `Text`: ASCII lower-casing, JavaScript `trim`, substring search, decimal digits;
- `Dates`: calendar-date triples and the age computation that five pages repeat;
- `Badges`: the "99+" notification badge;
- `Routes`: the screens a handler can navigate to;
- `Matching`: the like/dislike logic that Dashboard and Match share.

The main properties proved are these:

- **Chat unread counters.** While a peer's thread is closed, that peer's
  counter grows by exactly the number of messages the peer sent. While the
  thread is open, the messages land in the thread and the counter does not
  move.
- **Daily like limit.** When each like's response arrives before the next
  click, a free account never passes 10 likes a day. When likes overlap,
  the page's own check lets the counter pass 10 by up to the number of
  overlapping likes (see Findings). A check that also counts the likes in
  flight keeps 10 whatever the order of clicks and responses.
- **Filters.** The Admin user filter and the TravelDating plan filter keep
  exactly the entries that match, each as many times as before, in their
  original order.
- **Call teardown.** Whatever happens during a video call, hanging up
  releases every resource the screen holds.
- **Duration display.** The call-duration text reads back as the number of
  seconds it shows.
- **Profile photo strip.** After any sequence of uploads, removals and
  slideshow ticks, the thumbnail strip stays in step with the saved photos
  and the new uploads.
- **Age gate.** The age computation returns exactly the number of completed
  years. The sign-up gate is corrected to use it (see Findings).
- **Subscription plan.** The plan type read off a plan card's note, once
  stored and capitalised, gives back that card's name.

## Model

| member | source | states |
|---|---|---|
| Chat.HandleIncomingMessage | src/pages/Chat.js:108-121 | A message from the peer whose thread is open is appended to the thread and leaves every counter alone. Any other message raises only its sender's counter, by one. Nothing else changes. |
| Chat.ReceiveAllCountsUnselected | src/pages/Chat.js:108-121 | Over any run of incoming messages, a peer whose thread is not open gains exactly one unread count per message it sent. |
| Chat.ReceiveAllOpenThread | src/pages/Chat.js:108-121 | Over any run of incoming messages, the open thread grows by exactly its peer's messages, in arrival order. That peer's counter stays put. |
| Chat.HistoryLoaded | src/pages/Chat.js:86-102 | Loading a thread replaces the shown messages with the history. It deletes that peer's counter and keeps every other counter. |
| Chat.SelectThenReceive | src/pages/Chat.js:86-121 | After a conversation is opened and its history loads, with no unread snapshot arriving later, its counter is zero and stays zero. Its later messages go into the thread. |
| Chat.SnapshotAfterHistory | src/pages/Chat.js:41-121 | An unread snapshot that arrives after the history sets the open peer's counter to the snapshot's value. Later messages from that peer go into the thread without moving it. |
| Chat.UnreadSnapshotLoaded | src/pages/Chat.js:73-82 | The unread snapshot replaces the counters. A null body means no unread messages. |
| Chat.ConversationsLoaded | src/pages/Chat.js:41-70 | A valid redirect puts the named peer at the front of the list, unless the list already has that id, and opens that peer's thread. Distinct ids stay distinct. It navigates to a call only when the redirect asks for one. Without a redirect, the first conversation is opened only if none is open. |
| Chat.SelectConversation | src/pages/Chat.js:194 | Clicking a conversation opens its thread and changes nothing else. |
| Chat.SendMessage | src/pages/Chat.js:131-159 | A free account gets the messaging dialog and nothing is sent. A request is made exactly when the account is premium, the draft is not blank and a thread with an id is open. The request carries the trimmed draft and goes to that peer. Only a successful response appends the message and clears the draft. |
| Chat.SendKeepsCounters | src/pages/Chat.js:131-159 | A send never touches the unread counters, the open thread or the conversation list, whatever its outcome. |
| Chat.SendThenReply | src/pages/Chat.js:108-159 | A successful send and then a message from the open peer: the thread gains both in that order, the draft is cleared and no counter moves. |
| Chat.ReplyWhileSending | src/pages/Chat.js:108-159 | A message from the open peer that arrives while a send awaits its response is shown before the sent message: the thread follows arrival order. |
| Chat.HandleVideoCall | src/pages/Chat.js:162-170 | A free account gets the video dialog. Navigation to the call happens exactly for a premium account with an open thread, and targets that peer. |
| Chat.CloseDialog | src/pages/Chat.js:172-175 | The dialog is hidden and its text cleared; nothing else changes. |
| Chat.ConversationBadge | src/pages/Chat.js:202-205 | A badge appears exactly for a positive count. It reads "99+" exactly above 99 and shows the count otherwise. |
| Badges.RenderBadgeCount | src/pages/Dashboard.js:207 | The label is "99+" exactly when the count exceeds 99; otherwise it is the count itself. |
| Matching.RemoveCandidate | src/pages/Dashboard.js:173 | Exactly the candidates with that id leave the list. Every other candidate keeps its multiplicity and its relative order. |
| Matching.LikesAfter | src/pages/Dashboard.js:174 | The counter grows by one exactly for a like by a free account. Otherwise it stays the same. |
| Dashboard.UnreadChatsLoaded | src/pages/Dashboard.js:72-82 | The chat badge becomes the sum of the per-peer counts. A failed fetch changes nothing. |
| Dashboard.SumPermutation | src/pages/Dashboard.js:77 | The summed total does not depend on the order in which the per-peer counts are listed. |
| Dashboard.RequestsLoaded | src/pages/Dashboard.js:53-62 | The request badge is the length of the fetched list, or 0 when the fetch fails. |
| Dashboard.OnEvent | src/pages/Dashboard.js:88-95 | `new-message` adds one to the chat badge only, and `new-like` adds one to the request badge only. |
| Dashboard.EventsCountSeparately | src/pages/Dashboard.js:91-92 | Over any interleaving of socket events, each badge grows by exactly the number of events of its own kind. Nothing else changes. |
| Dashboard.GoToChats | src/pages/Dashboard.js:142-145 | Only the chat badge is zeroed, and the page goes to the chats screen. |
| Dashboard.GoToFriends | src/pages/Dashboard.js:147-150 | Only the request badge is zeroed, and the page goes to the friends screen. |
| Dashboard.HandleAction | src/pages/Dashboard.js:161-178 | A click and its response as one step. A like by a free account at the limit (`Matching.LikeBlocked`, the check Match shares) only opens the limit modal, and nothing is sent. Otherwise the action is sent. On success the list becomes `RemoveCandidate` of the old list: exactly the target leaves it, and the rest keep their order. The like counter follows `LikesAfter`. On failure nothing changes. Per click-and-response step, a free account within the limit stays within it. |
| Dashboard.DailyLimitHolds | src/pages/Dashboard.js:161-178 | When each like's response arrives before the next click, a free account's like counter never exceeds 10, over any sequence of clicks and outcomes. |
| Dashboard.Click | src/pages/Dashboard.js:161-172 | The click alone. The check reads the counter as it stands at the click. A refused like only opens the limit modal. Any other click adds its request to those awaiting a response and leaves the page as it is. |
| Dashboard.Respond | src/pages/Dashboard.js:166-177 | The response to any request still awaiting one, in any order. The request leaves the pending list. On success the target leaves the candidates and a free account's like is counted. On failure the page is unchanged. |
| Dashboard.ClickThenRespondIsHandleAction | src/pages/Dashboard.js:161-178 | With nothing in flight, a click followed at once by its response is the single step `HandleAction`. |
| Dashboard.OverlapBound | src/pages/Dashboard.js:161-178 | Over any order of clicks and responses, a free account's counter never passes 10 plus the number of likes clicked while another like was awaiting its response. |
| Dashboard.OverlappingLikesPassLimit | src/pages/Dashboard.js:161-178 | At 9 likes, two likes clicked before the first response both pass the check. Once both succeed, the counter stands at 11. |
| Dashboard.ClickCounted | src/pages/Dashboard.js:161-172 | The check as intended: a free account's like is refused when the counted likes plus the likes in flight reach 10. With no like in flight it is the page's own click. |
| Dashboard.CountedLimitHolds | src/pages/Dashboard.js:161-178 | With the intended check, a free account's counter plus its likes in flight stays at most 10, whatever the order of clicks and responses. |
| Dashboard.GoToChat | src/pages/Dashboard.js:180-190 | A free account gets the premium modal and does not navigate. A premium account with a selected candidate opens the chat on that candidate. |
| Dashboard.StartVideoCall | src/pages/Dashboard.js:192-205 | A free account gets the premium modal. With no selection nothing happens. Otherwise the call opens on the selected candidate and the selection is cleared. |
| Dashboard.ProfileCompletionChecked | src/pages/Dashboard.js:121-139 | The completion prompt opens exactly for a fetched profile that is incomplete (`Dashboard.IsIncomplete`: the name, date of birth, gender or bio is missing or empty, or there is no photo). Otherwise the state is unchanged. |
| Dashboard.CloseIncompletePrompt | src/pages/Dashboard.js:350 | Clicking the overlay closes the completion prompt and changes nothing else. |
| Dashboard.VisitShowsPromptIff | src/pages/Dashboard.js:27-139 | Each visit (`Dashboard.Visit`) mounts with the prompt closed and checks once. The prompt then opens exactly when that visit fetched an incomplete profile, whatever earlier visits showed and whether the prompt was closed. |
| Match.HandleAction | src/pages/Match.js:35-57 | A click and its response as one step. A like by a free account at the limit only opens the 'like' dialog and sends nothing. Dislikes and premium accounts always send. On success the list becomes `RemoveCandidate` of the old list: exactly the target leaves it, and the rest keep their order. Only a free account's like is counted. On failure only the error message is set. Per click-and-response step, a free account within the limit stays within it. |
| Match.GoToChat | src/pages/Match.js:68-81 | A free account gets the 'message' dialog and does not navigate. A premium account navigates exactly when a card is selected, to the chat with that user. |
| Match.StartVideoCall | src/pages/Match.js:83-95 | A free account gets the 'video' dialog. With no selection nothing happens. Otherwise the call opens on the selected user and the selection is cleared. |
| Match.CloseDialog | src/pages/Match.js:97 | The dialog closes and nothing else changes. |
| Dates.CalculateAge | src/pages/Match.js:59-66 | The result is the number of completed years: that anniversary is on or before today, and the next one is not. |
| Dates.AgeIsUnique | src/pages/Dashboard.js:152-159 | Only one number of years has that anniversary property, so it determines the age. |
| Dates.AgeOrBlank | src/pages/Profile.js:82-90 | A missing date of birth shows nothing. Otherwise the shown value is the number of completed years. |
| VideoCall.Setup | src/pages/VideoCall.js:60-67 | Without a `userId`, the screen alerts, goes back to the chats list and builds no peer connection. With one, it holds only an open connection. |
| VideoCall.OnIceCandidate | src/pages/VideoCall.js:69-76 | A signal is emitted exactly for a non-null candidate, and it is addressed to `userId`. |
| VideoCall.MediaAcquired | src/pages/VideoCall.js:84-99 | The stream is held and shown locally, with one enabled, live track per acquired kind. |
| VideoCall.RemoteTrackArrived | src/pages/VideoCall.js:78-82 | The remote sink is attached and nothing else changes. |
| VideoCall.OnNegotiationNeeded | src/pages/VideoCall.js:103-112 | With the corrected timer (see Findings): the offer goes to `userId`, and the call counts as started. If every running interval was the tracked one, that is still true afterwards. |
| VideoCall.OnOffer | src/pages/VideoCall.js:119-126 | With the corrected timer (see Findings): the answer goes to the sender of the offer, and the call counts as started. Timer tracking is preserved. |
| VideoCall.OnAnswer | src/pages/VideoCall.js:114-117 | With the corrected timer (see Findings): the timer restarts, the started flag is unchanged, and timer tracking is preserved. |
| VideoCall.StartCallTimer | src/pages/VideoCall.js:190-194 | The corrected timer (see Findings): the new interval replaces the one `timerRef` names. If that was the only running interval, exactly one interval runs afterwards. |
| VideoCall.Tick | src/pages/VideoCall.js:191-193 | A tick of a running interval adds exactly one second. A cleared interval changes nothing. |
| VideoCall.FirstOfKind | src/pages/VideoCall.js:172 | Returns the position of the first track of the kind, or none when no track has that kind. |
| VideoCall.ToggleMute | src/pages/VideoCall.js:170-178 | With a held stream that has an audio track, the first audio track's `enabled` flips and `isMuted` is the negation of the new value. Every other track is unchanged. Otherwise nothing changes. |
| VideoCall.ToggleCamera | src/pages/VideoCall.js:180-188 | The same for the first video track and `isCameraOff`. |
| VideoCall.MuteTwiceRestoresTracks | src/pages/VideoCall.js:170-178 | Two mute presses give the tracks back unchanged, and `isMuted` then agrees with the audio track. |
| VideoCall.CameraTwiceRestoresTracks | src/pages/VideoCall.js:180-188 | Two camera presses give the tracks back unchanged, and `isCameraOff` then agrees with the video track. |
| VideoCall.CleanupCall | src/pages/VideoCall.js:144-160 | Afterwards there is no connection, no held stream and no attached sink, and every track is stopped. Only the interval `timerRef` names is cleared. When that is the only running interval, everything is released. |
| VideoCall.CleanupIdempotent | src/pages/VideoCall.js:144-160 | A second cleanup changes nothing. |
| VideoCall.EndCall | src/pages/VideoCall.js:162-168 | Hanging up marks the call as ending, releases the connection, the stream and both sinks, keeps the duration, and goes to the chats list. With the corrected timer everything is released. |
| VideoCall.EndThenUnmount | src/pages/VideoCall.js:136-168 | The unmount cleanup that follows hanging up finds nothing left to release. |
| VideoCall.HangupReleasesEverything | src/pages/VideoCall.js:60-194 | After any sequence of call events, with the timer started as intended, hanging up leaves nothing live. |
| VideoCall.StartCallTimerAsWritten | src/pages/VideoCall.js:190-194 | The new interval is added to the running ones, and `timerRef` is overwritten with its id. |
| VideoCall.OutboundCallLeaksTimer | src/pages/VideoCall.js:103-117 | On the outbound path as written, the timer starts twice. During the call both intervals tick, so the duration rises by 2 each second. After hanging up, the first interval still runs and still adds seconds. |
| VideoCall.TwoDigits | src/pages/VideoCall.js:198 | The seconds field is exactly two digits and reads back as the seconds. |
| VideoCall.FormatDurationShape | src/pages/VideoCall.js:196-200 | The text of `VideoCall.FormatDuration` is the decimal minutes, a colon, then the two-digit remaining seconds. |
| VideoCall.FormatDurationRoundTrip | src/pages/VideoCall.js:196-200 | Reading the display back as minutes × 60 + seconds gives the original number of seconds. |
| Admin.FilterUsers | src/pages/Admin.js:107-132 | The result is a subsequence of the users. Each user appears as often as before if it matches the search term and status, and not at all otherwise. An empty term matches everyone, and an unknown status keeps everyone. |
| Admin.UpdateById | src/pages/Admin.js:146-151 | Users with the id are updated; every other entry is unchanged; the length is kept. |
| Admin.PremiumToggle | src/pages/Admin.js:134-168 | A premium user gets a removal request. On success only that user's flag is cleared. A free user gets no request, and the duration dialog opens with the default duration. |
| Admin.AddPremium | src/pages/Admin.js:170-199 | The chosen duration is posted. On success the chosen user becomes premium, the dialog closes and the success message names the duration. On failure only the message and its type change, so the dialog stays open. |
| Admin.BlockUser | src/pages/Admin.js:201-228 | The block or unblock request is chosen from the status the button showed. On success that user's flag becomes its opposite. On failure only the error message is set. |
| Admin.SuspendUser | src/pages/Admin.js:230-257 | The same for the suspension flag. |
| Admin.BlockTouchesOnlyTarget | src/pages/Admin.js:201-228 | A successful block changes only the blocked flag of the users with that id. |
| Admin.SuspendTouchesOnlyTarget | src/pages/Admin.js:230-257 | A successful suspension changes only the suspension flag of the users with that id. |
| Admin.BlockThenUnblockRestores | src/pages/Admin.js:201-228 | Blocking and then unblocking a user who was not blocked restores the table. |
| Admin.GetStatusBadge | src/pages/Admin.js:284-289 | Blocked outranks suspended, which outranks premium; each badge is given by an exact condition. |
| Admin.BadgeAgreesWithFilter | src/pages/Admin.js:284-289 | Each badge agrees with the status filter of the same name: a user shown as blocked, suspended, premium or free is kept by that filter. |
| Admin.StatCards | src/pages/Admin.js:318-337 | The total card is the number of users. The premium, blocked and suspended cards are the numbers of users with that flag. The premium count plus the number of free users is the total, and no flag count exceeds it. The new-user card shows the fetched count. |
| Admin.PremiumSplit | src/pages/Admin.js:318-325 | Premium users plus non-premium users is the total. |
| Admin.BlockRaisesBlockedCount | src/pages/Admin.js:201-228 | When ids are unique, blocking an unblocked user raises the "Blocked Users" card by exactly one. |
| Admin.RecentUsers | src/pages/Admin.js:457-469 | At most three users are shown, and they are the first ones. The "+n more" note appears exactly when there are more than three. Shown plus more is the total. |
| TravelDating.TextStages | src/pages/TravelDating.js:114-125 | The destination, gender and budget stages keep exactly the plans that pass them, in order, with their multiplicities. |
| TravelDating.RangeStages | src/pages/TravelDating.js:127-143 | The interest and date stages keep exactly the plans that pass them, in order, with their multiplicities. |
| TravelDating.FilterPlans | src/pages/TravelDating.js:111-147 | The visible list is a subsequence of the plans. It holds each plan that passes every active criterion as often as before, and no other plan. |
| TravelDating.ClearFilters | src/pages/TravelDating.js:307-314 | Every criterion is switched off and nothing else changes. |
| TravelDating.ClearedFiltersShowAll | src/pages/TravelDating.js:307-314 | With the filters cleared, every plan is listed in its original order. |
| TravelDating.ToggleFormInterest | src/pages/TravelDating.js:149-163 | A selected interest is removed. An unselected one is appended only below the cap of five; at the cap nothing changes. No other interest changes. |
| TravelDating.FormInterestsStayBounded | src/pages/TravelDating.js:149-163 | A selection within the cap and without repeats stays so after any toggle. |
| TravelDating.ToggleFilterInterest | src/pages/TravelDating.js:165-171 | Membership of the toggled interest flips and nothing else changes. |
| TravelDating.FilterToggleTwice | src/pages/TravelDating.js:165-171 | Two toggles give back the same selected set. |
| Seqs.Toggle | src/pages/Profile.js:123-127 | The element is present exactly when it was absent. Other elements keep their membership. An added element goes at the end, and a list without repeats keeps none. |
| TravelDating.ValidateForm | src/pages/TravelDating.js:173-200 | Each field's error is given by an exact condition, with a later check overriding an earlier one. A blank destination is required. An empty start date is required and otherwise must not be before now. An end date that is empty is required, and one that is not after the start is out of order. |
| TravelDating.ValidIff | src/pages/TravelDating.js:173-200 | The form is valid exactly when the destination has non-blank text, both dates are present, the end is after the start, and the start is not before now. |
| TravelDating.PostTravelPlan | src/pages/TravelDating.js:202-242 | Login comes before validation. A plan is posted exactly when the visitor is logged in and the form is valid. On success the form resets and the success dialog opens. A failure alerts the server's error, or the default when the error is missing or empty, so the alert is never empty. |
| TravelDating.Connect | src/pages/TravelDating.js:244-275 | Login first, then the premium gate. A request is made exactly for a logged-in premium visitor and a plan whose poster was populated, and it goes to that poster. For a plan without a poster nothing is sent and "Failed to connect" is alerted. A "premium required" failure opens the upgrade dialog. Any other failure alerts the server's error, or the default when it is missing or empty. |
| TravelDating.ConnectUpgradeIff | src/pages/TravelDating.js:244-275 | Starting closed, the upgrade dialog opens exactly for a logged-in visitor who is not premium, or whose request for a populated poster the server refused for want of premium. Only the two dialogs and the success text can change. |
| TravelDating.PremiumConnectAnswered | src/pages/TravelDating.js:244-275 | For a logged-in premium visitor, a click either sends the request or raises "Failed to connect" with the state unchanged. |
| Profile.ProfileLoaded | src/pages/Profile.js:44-67 | The saved photos, or none, become the saved list and the thumbnails, one cache-busted URL per photo, in order. The hobbies default to none. The smoking and drinking habits default to "None" and the other details to the empty string, an empty value also taking the default. Uploads, slideshow index and message are kept. |
| Profile.FileChange | src/pages/Profile.js:92-102 | A batch that would pass five thumbnails is refused whole, with a message. Otherwise every file is appended to the uploads and gets a thumbnail at the end, and the total stays at most five. |
| Profile.FileChangeKeepsAligned | src/pages/Profile.js:92-102 | An accepted batch keeps the thumbnails equal to the saved photos followed by the uploads. |
| Profile.RemoveImage | src/pages/Profile.js:104-121 | The thumbnail at the index goes, together with the saved photo or the upload it shows. The slideshow falls back to 0 when its index is past the end. |
| Profile.RemoveImageKeepsAligned | src/pages/Profile.js:104-121 | Removal keeps the thumbnails equal to the saved photos followed by the uploads. |
| Profile.SlideshowTick | src/pages/Profile.js:72-80 | With more than one thumbnail, the index moves to the next one and wraps around to 0. Otherwise nothing changes. |
| Profile.StripInvariant | src/pages/Profile.js:72-121 | After any sequence of uploads, removals and ticks, the thumbnails stay in step with their sources, and the slideshow index stays on a thumbnail. |
| Profile.PhotoBase | src/pages/Profile.js:61 | An `http` path is kept. Any other path is joined to the API base with each backslash turned into a slash. |
| Profile.PhotoUrl | src/pages/Profile.js:63 | The base, then `&` exactly when the base already has a `?` (otherwise `?`), then `t=` and the fetch time. |
| Profile.PhotoUrlHasStamp | src/pages/Profile.js:60-64 | Every photo URL has a query string, and its stamp reads back as the fetch time. |
| Profile.HobbyToggle | src/pages/Profile.js:123-127 | The hobby's membership flips; other hobbies and fields are unchanged. |
| Profile.Submit | src/pages/Profile.js:129-159 | An empty strip is refused with a message and nothing is sent. Otherwise the uploads, the remaining saved paths, the hobbies and the details are sent, and the message reports the outcome. |
| Profile.LoadThenSubmit | src/pages/Profile.js:44-159 | Right after a load with at least one saved photo, a submit sends exactly the loaded paths, hobbies and details, and no uploads. |
| Profile.SubmittedHasAPhoto | src/pages/Profile.js:129-134 | A submitted profile always has at least one saved photo or upload. |
| Homepage.UsersLoaded | src/pages/Homepage.js:31-43 | The fetched list, or an empty one, replaces the profiles, and the carousel goes back to the first. |
| Homepage.NextProfile | src/pages/Homepage.js:55-59 | It moves on exactly while a later profile exists and keeps a valid index valid. |
| Homepage.PreviousProfile | src/pages/Homepage.js:61-65 | It moves back exactly while an earlier profile exists and keeps a valid index valid. |
| Homepage.NextThenPrevious | src/pages/Homepage.js:55-65 | When next moves, previous undoes it. |
| Homepage.CarouselStaysInRange | src/pages/Homepage.js:40-65 | After any loads and button presses the index stays on a profile, or at 0 when there is none. |
| Homepage.MobileCard | src/pages/Homepage.js:118-152 | A card is shown exactly when the index is on a profile, and it shows that profile with an "i of n" counter. |
| Homepage.CardShownIffProfiles | src/pages/Homepage.js:118-152 | With a valid index, a card is shown exactly when profiles exist, and its counter lies between 1 and n. |
| Homepage.StripLeadingSlash | src/pages/Homepage.js:125 | At most one leading slash is removed, and exactly when the path starts with one. The rest is kept. |
| Homepage.CardPhoto | src/pages/Homepage.js:123-126 | The placeholder is shown exactly when there is no photo. Otherwise the image is the first photo under the API base. |
| Homepage.OneLeadingSlashIgnored | src/pages/Homepage.js:174-176 | A single leading slash on a stored path makes no difference, but a second one survives. |
| Homepage.GoToDashboard | src/pages/Homepage.js:78-84 | With a token it goes to the dashboard. Otherwise the login dialog opens and nothing else changes. |
| Signup.HandleChange | src/pages/Signup.js:20-22 | The edited field takes the new value and every other field keeps its value. |
| Signup.ChangeKeepsFields | src/pages/Signup.js:20-22 | Editing never loses one of the form's six fields. |
| Signup.AsWrittenAdmitsBirthdayMonth | src/pages/Signup.js:24-30 | The written gate accepts exactly those the intended gate accepts, plus those who turn 18 later in the current month. |
| Signup.AsWrittenAdmitsSeventeen | src/pages/Signup.js:24-30 | A 17-year-old, born 2008-10-20 and checked on 2026-10-09, passes the written gate. |
| Signup.AtLeast18MeansAnniversaryReached | src/pages/Signup.js:24-30 | The intended gate passes exactly when the 18th birthday is on or before today. |
| Signup.HandleSubmit | src/pages/Signup.js:32-51 | With the corrected age gate (see Findings): the age check comes first, then the terms check. The form is posted exactly when both pass. Success goes to login with the success message. A failure shows the server's error, or "Signup failed" when it is missing or empty, so the message is never empty. |
| Subscription.GetCurrencySymbol | src/pages/Subscription.js:80-91 | A listed code gives its table symbol. Any other code is returned as it is. |
| Subscription.SymbolsDistinct | src/pages/Subscription.js:80-91 | No two listed currencies share a symbol. |
| Subscription.CurrencyLookedUp | src/pages/Subscription.js:32-49 | The currency defaults to INR when the lookup gives none or an empty code, so it is never empty. The symbol follows the currency only when the rates arrive, and falls back to the rupee sign otherwise. |
| Subscription.PlanTypeOf | src/pages/Subscription.js:104-108 | `monthly` exactly when the lower-cased note contains it. `yearly` exactly when the note contains that but not `monthly`. None otherwise. |
| Subscription.PlanNotesRoundTrip | src/pages/Subscription.js:17-30 | Each plan card's note is read back as that card's plan. The stored plan value capitalises back to the card's name. |
| Subscription.HandlePayment | src/pages/Subscription.js:98-140 | Checkout opens exactly when the script and its constructor are present, and otherwise the "not ready" alert is raised. The checkout carries the amount × 100 in INR, the note, and the plan type read off it. |
| Subscription.PaymentSucceeded | src/pages/Subscription.js:117-134 | The payment alert always comes first. The subscription is saved exactly when a plan type was recognised. A returned subscription replaces the current one. A save that returns no subscription keeps the current plan and raises only the payment alert. A failed save adds one alert and keeps the current plan. |
| Subscription.PlanCardEndToEnd | src/pages/Subscription.js:98-166 | Paying from either plan card opens checkout for the card's price in paise with the card's plan type. Once the payment succeeds and the plan is saved, the heading names that card. |
| Text.Capitalize | src/pages/Subscription.js:166 | The length is kept, the first character is upper-cased (ASCII letters only) and the rest are unchanged. |
| Subscription.CurrentPlanHeading | src/pages/Subscription.js:166 | The heading starts with "Current Plan: " and then the plan name with only its first character upper-cased (ASCII letters only). |

## Left out

- HTTP requests, sockets and the React effect scheduling are left out. A request's outcome is a parameter of the handler that awaited it, and a socket event is a call of its handler.
- Chat's refetch of the history when the selection changes is left out. So is the race between a history response and a message arriving while it is in flight. `HistoryLoaded` models the response as one atomic step.
- Two rapid sends in Chat are not interleaved. Each `SendMessage` runs to completion.
- Chat.SelectThenReceive: the counter is shown to stay zero only when no unread snapshot arrives after the history. Each selection re-runs the conversations and unread fetches (`Chat.js:41-83` lists the selection as a dependency), and a late snapshot replaces the counters, as `Chat.SnapshotAfterHistory` states.
- Chat's redirect re-selects a fresh peer object on every run of that effect (`Chat.js:51-59`), and the selection is one of its dependencies, so the fetches repeat without end. Effect scheduling is not modelled, so this loop is not either.
- Dashboard.DailyLimitHolds, Dashboard.HandleAction, Match.HandleAction: these fuse a click with its response, so their limit bound holds only when each like's response arrives before the next click. `Dashboard.Click`, `Dashboard.Respond` and `Dashboard.OverlapBound` model the overlap for Dashboard.
- Match.HandleAction: Match's click and response are not modelled as separate steps. Its check and increment follow the Dashboard pattern (`Match.js:35-57`), so the overlapping-like race in Findings applies to it too.
- WebRTC itself is left out: `RTCPeerConnection`, `getUserMedia`, SDP and ICE. Session descriptions and candidates are opaque strings. A media stream that arrives after `cleanupCall` has run is not modelled.
- The VideoCall premium check (`VideoCall.js:38-58`) is left out. It is a request whose outcome only navigates away.
- `endCall`'s 500 ms delay before navigating, and Signup's 1500 ms delay before redirecting, are not timed. `VideoCall.EndCall` and `Signup.HandleSubmit` return the navigation directly.
- JavaScript `Date` parsing and time zones are left out. Dates arrive as calendar triples, or as integer timestamps for TravelDating.
- TravelDating.ValidateForm: the start date is the timestamp the date input's value parses to (midnight UTC of that day), and any start before `now` is rejected. The model compares timestamps as the page does; which local days that rejects depends on the time zone, and that is not modelled.
- Dates.CalculateAge: the five copies of `calculateAge` (Match, Dashboard, Homepage, Profile, TravelDating) are one function. The Profile and TravelDating copies, which return '' for a missing date, are `Dates.AgeOrBlank`.
- Text.Capitalize: only ASCII letters are upper-cased and the length is kept, whereas `toUpperCase` is Unicode-aware and can lengthen a string ('ß' becomes 'SS'). The stored plan values are ASCII.
- Subscription.CurrentPlanHeading: inherits the ASCII-only upper-casing of `Text.Capitalize`.
- Text.ToLower: only ASCII letters are lower-cased, whereas `toLowerCase` is Unicode-aware. `trim` is modelled with the full ECMAScript whitespace set.
- Floating-point prices (`formatPrice`, the conversion rate) and locale date formatting (`formatDate`) are left out.
- Razorpay's script loading, key and window are left out. The readiness flags are parameters.
- `Subscription.fetchActivePlan` is left out. It only copies a response into the state.
- Admin's detail modal, premium modal closing, logout, the referral-code and new-user fetches, and the admin-status check are left out. They only copy responses or flip visibility flags.
- Admin's `actionLoading` spinner flags are left out. They are transient and never read by the modelled logic.
- TravelDating's `handleEditPlan`, its fetches of the current user, plans and interests, and its `showFilters` toggle are left out. They only copy data or flip flags.
- Homepage's `handleAction` and `handleLoginSuccess` are left out. They only open the login dialog or navigate on success.
- Profile's fetch-failure message and its `URL.createObjectURL` are left out. The object URL is a function parameter.
- Profile.PhotoUrl: the `includes('?')` test is modelled as membership of the character `?`, which is the same thing for a one-character needle.
- Subscription.GetCurrencySymbol: the object's inherited properties (for example `toString`) are not looked up, so such a code returns itself.
- The static pages (PrivacyPolicy, Terms, CancellationRefund, ShippingPolicy, Faq, ContactUs), Login, ForgotPassword, Friends and the shared components are not part of this model.

## Findings

| source | as written | input that shows it | evidently intended | confidence | as-written member | corrected member |
|---|---|---|---|---|---|---|
| src/pages/Signup.js:24-30 | `isAbove18` compares only years and months; the day of the month is ignored | date of birth 2008-10-20, today 2026-10-09: the gate passes although the person is 17 | eighteen full years have passed since the date of birth | high; not executed | Signup.IsAbove18AsWritten, with Signup.AsWrittenAdmitsSeventeen and Signup.AsWrittenAdmitsBirthdayMonth | Signup.IsAtLeast18, with Signup.AtLeast18MeansAnniversaryReached and Signup.HandleSubmit |
| src/pages/VideoCall.js:103-117, src/pages/VideoCall.js:190-194 | `startCallTimer` starts a new interval and overwrites `timerRef` without clearing the old one. The caller starts it after sending the offer and again when the answer arrives. | an outbound call: offer sent, answer received, then hang up. While the call lasts both intervals tick, so the shown duration rises by 2 each second. `cleanupCall` clears only the second interval, and the first keeps adding seconds. | the running interval is cleared before a new one is started, so hanging up stops the timer | high; not executed | VideoCall.StartCallTimerAsWritten, with VideoCall.OutboundCallLeaksTimer | VideoCall.StartCallTimer, with VideoCall.HangupReleasesEverything |
| src/pages/Dashboard.js:161-178 | The limit check reads the counter at the click, and the counter only rises when the response arrives. Likes still in flight are not counted. `Match.js:35-57` repeats the pattern. | a free account at 9 likes clicks like on two candidates before the first response arrives. Both pass the check, both succeed, and the counter reaches 11. | a free account never passes 10 likes a day | medium; not executed | Dashboard.Click, with Dashboard.OverlappingLikesPassLimit and Dashboard.OverlapBound | Dashboard.ClickCounted, with Dashboard.CountedLimitHolds |

=== FILE: admin.dfy ===
/** The admin dashboard: searching and status-filtering the user table,
    the per-user premium / block / suspend switches with their local table
    updates, the status badge, the stat cards and the referral-code card's
    "recent users" list. The REST calls are replaced by their outcome. */
module Admin {
  import opened Wrappers
  import Seqs
  import Text

  type UserId = string

  /** A row of `/api/admin/users`. Name, email, city and state may be absent. */
  datatype AdminUser = AdminUser(
    id: UserId,
    name: Option<string>,
    email: Option<string>,
    city: Option<string>,
    state: Option<string>,
    isPremium: bool,
    isBlocked: bool,
    isSuspended: bool)

  datatype MessageType = NoType | Success | Error

  /** The page's state. The visible table, `filteredUsers`, is recomputed
      from `users`, `searchTerm` and `filterStatus` whenever one of them
      changes, so it is derived here (`Visible`) rather than stored. */
  datatype AdminState = AdminState(
    users: seq<AdminUser>,
    searchTerm: string,
    filterStatus: string,
    message: string,
    messageType: MessageType,
    showPremiumModal: bool,
    premiumUserId: Option<UserId>,
    premiumDuration: string)

  /** The bodies posted to the admin endpoints. */
  datatype AdminRequest =
    | PremiumRequest(premiumUser: Option<UserId>, action: string, duration: Option<string>)
    | BlockRequest(userId: UserId, action: string)
    | SuspendRequest(userId: UserId, action: string)

  datatype AdminStep = AdminStep(state: AdminState, request: Option<AdminRequest>)

  const DefaultDuration := "1month"

  // ----- search and status filter -----

  /** `field?.toLowerCase().includes(term.toLowerCase())`: an absent field
      never matches. */
  predicate FieldMatches(field: Option<string>, term: string) {
    field.Some? && Text.Contains(Text.ToLower(field.value), Text.ToLower(term))
  }

  predicate MatchesSearch(u: AdminUser, term: string) {
    || FieldMatches(u.name, term)
    || FieldMatches(u.email, term)
    || FieldMatches(u.city, term)
    || FieldMatches(u.state, term)
  }

  /** The status drop-down: the four named values each keep one kind of
      user; any other value (`'all'`) keeps everyone. */
  predicate MatchesStatus(u: AdminUser, status: string) {
    if status == "premium" then u.isPremium
    else if status == "free" then !u.isPremium
    else if status == "blocked" then u.isBlocked
    else if status == "suspended" then u.isSuspended
    else true
  }

  /** Whether a user belongs in the visible table: an empty search term
      matches everyone. */
  predicate Shown(u: AdminUser, term: string, status: string) {
    (term == [] || MatchesSearch(u, term)) && MatchesStatus(u, status)
  }

  /** `filterUsers`: the search stage, then the status stage. The result
      keeps exactly the users `Shown` accepts, each as often as before and in
      the original order. */
  function FilterUsers(users: seq<AdminUser>, term: string, status: string): (r: seq<AdminUser>)
    ensures Seqs.IsSubsequence(r, users)
    ensures forall u :: multiset(r)[u] == if Shown(u, term, status) then multiset(users)[u] else 0
    ensures forall u :: u in r <==> u in users && Shown(u, term, status)
  {
    var searched := Seqs.FilterWhen(users, term != [], (u: AdminUser) => MatchesSearch(u, term));
    var r :=
      if status == "premium" then Seqs.Filter(searched, (u: AdminUser) => u.isPremium)
      else if status == "free" then Seqs.Filter(searched, (u: AdminUser) => !u.isPremium)
      else if status == "blocked" then Seqs.Filter(searched, (u: AdminUser) => u.isBlocked)
      else if status == "suspended" then Seqs.Filter(searched, (u: AdminUser) => u.isSuspended)
      else searched;
    Seqs.SubsequenceReflexive(searched);
    Seqs.SubsequenceTransitive(r, searched, users);
    r
  }

  function Visible(st: AdminState): seq<AdminUser> {
    FilterUsers(st.users, st.searchTerm, st.filterStatus)
  }

  // ----- per-user updates -----

  /** `prev.map(user => user._id === id ? f(user) : user)`. */
  function UpdateById(users: seq<AdminUser>, id: UserId, f: AdminUser -> AdminUser): (r: seq<AdminUser>)
    ensures |r| == |users|
    ensures forall i :: 0 <= i < |r| && users[i].id == id ==> r[i] == f(users[i])
    ensures forall i :: 0 <= i < |r| && users[i].id != id ==> r[i] == users[i]
  {
    if |users| == 0 then []
    else [if users[0].id == id then f(users[0]) else users[0]] + UpdateById(users[1..], id, f)
  }

  function SetPremium(users: seq<AdminUser>, id: UserId, v: bool): seq<AdminUser> {
    UpdateById(users, id, (u: AdminUser) => u.(isPremium := v))
  }

  function SetBlocked(users: seq<AdminUser>, id: UserId, v: bool): seq<AdminUser> {
    UpdateById(users, id, (u: AdminUser) => u.(isBlocked := v))
  }

  function SetSuspended(users: seq<AdminUser>, id: UserId, v: bool): seq<AdminUser> {
    UpdateById(users, id, (u: AdminUser) => u.(isSuspended := v))
  }

  /** The user ids of the table are distinct (they are database keys). */
  predicate UniqueIds(users: seq<AdminUser>) {
    forall i, j :: 0 <= i < j < |users| ==> users[i].id != users[j].id
  }

  /** `handlePremiumToggle(userId, currentStatus)`. For a premium user it
      posts a removal and, on success, clears that user's flag; for a free
      user it posts nothing and opens the duration dialog with the default
      duration. */
  function PremiumToggle(st: AdminState, userId: UserId, currentStatus: bool, succeeded: bool): (r: AdminStep)
    ensures currentStatus ==> r.request == Some(PremiumRequest(Some(userId), "remove", None))
    ensures currentStatus && succeeded ==>
      && r.state.users == SetPremium(st.users, userId, false)
      && r.state.messageType == Success
      && r.state.(users := st.users, message := st.message, messageType := st.messageType) == st
    ensures currentStatus && !succeeded ==>
      && r.state.messageType == Error
      && r.state.(message := st.message, messageType := st.messageType) == st
    ensures !currentStatus ==>
      && r.request.None?
      && r.state == st.(premiumUserId := Some(userId), premiumDuration := DefaultDuration, showPremiumModal := true)
  {
    if currentStatus then
      var req := Some(PremiumRequest(Some(userId), "remove", None));
      if succeeded then
        AdminStep(st.(users := SetPremium(st.users, userId, false),
                      message := "Premium removed from user successfully", messageType := Success), req)
      else
        AdminStep(st.(message := "Failed to remove premium status", messageType := Error), req)
    else
      AdminStep(st.(premiumUserId := Some(userId), premiumDuration := DefaultDuration, showPremiumModal := true), None)
  }

  /** `handleAddPremium`: posts the chosen duration for `premiumUserId`; on
      success that user (if any) becomes premium and the dialog closes. On
      failure the dialog stays open. */
  function AddPremium(st: AdminState, succeeded: bool): (r: AdminStep)
    ensures r.request == Some(PremiumRequest(st.premiumUserId, "add", Some(st.premiumDuration)))
    ensures succeeded ==>
      && (st.premiumUserId.Some? ==> r.state.users == SetPremium(st.users, st.premiumUserId.value, true))
      && (st.premiumUserId.None? ==> r.state.users == st.users)
      && !r.state.showPremiumModal && r.state.premiumUserId.None?
      && r.state.message == "Premium (" + st.premiumDuration + ") added to user successfully"
      && r.state.messageType == Success
    ensures !succeeded ==>
      && r.state.messageType == Error
      && r.state.(message := st.message, messageType := st.messageType) == st
  {
    var req := Some(PremiumRequest(st.premiumUserId, "add", Some(st.premiumDuration)));
    if succeeded then
      var users := if st.premiumUserId.Some? then SetPremium(st.users, st.premiumUserId.value, true) else st.users;
      AdminStep(st.(users := users,
                    message := "Premium (" + st.premiumDuration + ") added to user successfully",
                    messageType := Success, showPremiumModal := false, premiumUserId := None), req)
    else
      AdminStep(st.(message := "Failed to add premium status", messageType := Error), req)
  }

  /** `handleBlockUser(userId, currentStatus)`: posts `block` or `unblock`
      and, on success, sets that user's flag to the opposite of the status
      the button showed. */
  function BlockUser(st: AdminState, userId: UserId, currentStatus: bool, succeeded: bool): (r: AdminStep)
    ensures r.request == Some(BlockRequest(userId, if currentStatus then "unblock" else "block"))
    ensures succeeded ==>
      && r.state.users == SetBlocked(st.users, userId, !currentStatus)
      && r.state.message == (if currentStatus then "User unblocked successfully" else "User blocked successfully")
      && r.state.(users := st.users, message := st.message, messageType := st.messageType) == st
    ensures !succeeded ==>
      && r.state.message == "Failed to update user status" && r.state.messageType == Error
      && r.state.(message := st.message, messageType := st.messageType) == st
  {
    var action := if currentStatus then "unblock" else "block";
    if succeeded then
      AdminStep(st.(users := SetBlocked(st.users, userId, !currentStatus),
                    message := "User " + (if action == "block" then "blocked" else "unblocked") + " successfully",
                    messageType := Success), Some(BlockRequest(userId, action)))
    else
      AdminStep(st.(message := "Failed to update user status", messageType := Error), Some(BlockRequest(userId, action)))
  }

  /** `handleSuspendUser(userId, currentStatus)`: as `BlockUser`, for the
      suspension flag. */
  function SuspendUser(st: AdminState, userId: UserId, currentStatus: bool, succeeded: bool): (r: AdminStep)
    ensures r.request == Some(SuspendRequest(userId, if currentStatus then "unsuspend" else "suspend"))
    ensures succeeded ==>
      && r.state.users == SetSuspended(st.users, userId, !currentStatus)
      && r.state.message == (if currentStatus then "User unsuspended successfully" else "User suspended successfully")
      && r.state.(users := st.users, message := st.message, messageType := st.messageType) == st
    ensures !succeeded ==>
      && r.state.message == "Failed to update user status" && r.state.messageType == Error
      && r.state.(message := st.message, messageType := st.messageType) == st
  {
    var action := if currentStatus then "unsuspend" else "suspend";
    if succeeded then
      AdminStep(st.(users := SetSuspended(st.users, userId, !currentStatus),
                    message := "User " + (if action == "suspend" then "suspended" else "unsuspended") + " successfully",
                    messageType := Success), Some(SuspendRequest(userId, action)))
    else
      AdminStep(st.(message := "Failed to update user status", messageType := Error), Some(SuspendRequest(userId, action)))
  }

  /** A successful block touches the blocked flag of the one user with that
      id and nothing else in the table. */
  lemma BlockTouchesOnlyTarget(st: AdminState, userId: UserId, currentStatus: bool, i: nat)
    requires i < |st.users|
    ensures var users := BlockUser(st, userId, currentStatus, true).state.users;
      && |users| == |st.users|
      && users[i].(isBlocked := st.users[i].isBlocked) == st.users[i]
      && users[i].isBlocked == if st.users[i].id == userId then !currentStatus else st.users[i].isBlocked
  {
  }

  /** A successful suspend touches the suspension flag of the one user with
      that id and nothing else in the table. */
  lemma SuspendTouchesOnlyTarget(st: AdminState, userId: UserId, currentStatus: bool, i: nat)
    requires i < |st.users|
    ensures var users := SuspendUser(st, userId, currentStatus, true).state.users;
      && |users| == |st.users|
      && users[i].(isSuspended := st.users[i].isSuspended) == st.users[i]
      && users[i].isSuspended == if st.users[i].id == userId then !currentStatus else st.users[i].isSuspended
  {
  }

  /** Blocking then unblocking the same user (both succeeding) restores the
      table, provided the button showed that user's real status. */
  lemma {:induction false} BlockThenUnblockRestores(users: seq<AdminUser>, userId: UserId)
    requires forall i :: 0 <= i < |users| && users[i].id == userId ==> !users[i].isBlocked
    ensures SetBlocked(SetBlocked(users, userId, true), userId, false) == users
  {
    var once := SetBlocked(users, userId, true);
    var twice := SetBlocked(once, userId, false);
    assert |twice| == |users|;
    forall i | 0 <= i < |users|
      ensures twice[i] == users[i]
    {
      if users[i].id == userId {
        assert once[i] == users[i].(isBlocked := true);
      }
    }
  }

  // ----- status badge and stat cards -----

  datatype StatusBadge = BlockedBadge | SuspendedBadge | PremiumBadge | FreeBadge

  /** `getStatusBadge`: blocked outranks suspended, which outranks premium. */
  function GetStatusBadge(u: AdminUser): (b: StatusBadge)
    ensures b == BlockedBadge <==> u.isBlocked
    ensures b == SuspendedBadge <==> !u.isBlocked && u.isSuspended
    ensures b == PremiumBadge <==> !u.isBlocked && !u.isSuspended && u.isPremium
    ensures b == FreeBadge <==> !u.isBlocked && !u.isSuspended && !u.isPremium
  {
    if u.isBlocked then BlockedBadge
    else if u.isSuspended then SuspendedBadge
    else if u.isPremium then PremiumBadge
    else FreeBadge
  }

  /** The badge never contradicts the status filter: a user shown with a
      badge is kept by the filter of that name. */
  lemma BadgeAgreesWithFilter(u: AdminUser)
    ensures GetStatusBadge(u) == BlockedBadge ==> MatchesStatus(u, "blocked")
    ensures GetStatusBadge(u) == SuspendedBadge ==> MatchesStatus(u, "suspended")
    ensures GetStatusBadge(u) == PremiumBadge ==> MatchesStatus(u, "premium")
    ensures GetStatusBadge(u) == FreeBadge ==> MatchesStatus(u, "free")
  {
  }

  /** The number of users with a property, as `users.filter(p).length`. */
  function CountWhere(users: seq<AdminUser>, p: AdminUser -> bool): nat {
    |Seqs.Filter(users, p)|
  }

  datatype Stats = Stats(total: nat, premium: nat, blocked: nat, suspended: nat, newUsers: nat)

  /** The five stat cards. */
  function StatCards(users: seq<AdminUser>, newUsers: nat): (s: Stats)
    ensures s.total == |users|
    ensures s.premium == CountWhere(users, (u: AdminUser) => u.isPremium)
    ensures s.blocked == CountWhere(users, (u: AdminUser) => u.isBlocked)
    ensures s.suspended == CountWhere(users, (u: AdminUser) => u.isSuspended)
    ensures s.premium + CountWhere(users, (u: AdminUser) => !u.isPremium) == s.total
    ensures s.premium <= s.total && s.blocked <= s.total && s.suspended <= s.total
    ensures s.newUsers == newUsers
  {
    PremiumSplit(users);
    Stats(|users|, CountWhere(users, (u: AdminUser) => u.isPremium),
          CountWhere(users, (u: AdminUser) => u.isBlocked),
          CountWhere(users, (u: AdminUser) => u.isSuspended), newUsers)
  }

  /** Every user is counted either as premium or as free. */
  lemma {:induction false} PremiumSplit(users: seq<AdminUser>)
    ensures CountWhere(users, (u: AdminUser) => u.isPremium) + CountWhere(users, (u: AdminUser) => !u.isPremium) == |users|
  {
    if |users| > 0 {
      PremiumSplit(users[1..]);
    }
  }

  /** Blocking a user who was not blocked raises the "Blocked Users" card
      by exactly one when ids are distinct. */
  lemma {:induction false} BlockRaisesBlockedCount(users: seq<AdminUser>, k: nat)
    requires UniqueIds(users) && k < |users| && !users[k].isBlocked
    ensures CountWhere(SetBlocked(users, users[k].id, true), (u: AdminUser) => u.isBlocked)
         == CountWhere(users, (u: AdminUser) => u.isBlocked) + 1
    decreases |users|
  {
    var id := users[k].id;
    var after := SetBlocked(users, id, true);
    assert after[1..] == SetBlocked(users[1..], id, true);
    if k == 0 {
      UnmatchedUnchanged(users[1..], id);
    } else {
      assert users[1..][k - 1] == users[k];
      BlockRaisesBlockedCount(users[1..], k - 1);
    }
  }

  /** Updating an id that no user carries changes nothing. */
  lemma UnmatchedUnchanged(users: seq<AdminUser>, id: UserId)
    requires forall i :: 0 <= i < |users| ==> users[i].id != id
    ensures SetBlocked(users, id, true) == users
  {
  }

  // ----- referral card -----

  /** The "Recent Users" list of a referral code: the first three users, and
      a "+n more users" line only when some are hidden. */
  datatype RecentList<T> = RecentList(shown: seq<T>, more: Option<nat>)

  function RecentUsers<T>(users: seq<T>): (r: RecentList<T>)
    ensures |r.shown| <= 3 && |r.shown| <= |users| && r.shown == users[..|r.shown|]
    ensures r.more.Some? <==> |users| > 3
    ensures |r.shown| + r.more.GetOr(0) == |users|
  {
    var n := if |users| < 3 then |users| else 3;
    RecentList(users[..n], if |users| > 3 then Some(|users| - 3) else None)
  }
}

=== FILE: badges.dfy ===
/** The notification badge label shared by the dashboard navigation and the
    chat sidebar: the count itself, or "99+" once it passes 99. */
module Badges {

  datatype BadgeLabel = Overflow | Count(n: int)

  /** `renderBadgeCount(count)`. The label is "99+" exactly when the count
      exceeds 99; otherwise it shows the count unchanged. */
  function RenderBadgeCount(count: int): (r: BadgeLabel)
    ensures r.Overflow? <==> count > 99
    ensures r.Count? ==> r.n == count && r.n <= 99
  {
    if count > 99 then Overflow else Count(count)
  }
}

=== FILE: chat.dfy ===
/** The chat page: the conversation list, the open thread, the draft, the
    premium dialog and the per-peer unread counters, with each handler a
    function from the page state (plus the network result it awaited) to the
    next page state. */
module Chat {
  import opened Wrappers
  import Text
  import Badges
  import opened Routes

  type UserId = string

  /** A conversation partner as listed in the sidebar. */
  datatype Peer = Peer(id: UserId, name: string, photo: string)

  /** One line of the open thread. */
  datatype Message = Message(fromSelf: bool, body: string, timestamp: int)

  datatype ChatState = ChatState(
    conversations: seq<Peer>,
    selected: Option<Peer>,
    messages: seq<Message>,
    draft: string,
    isPremium: bool,
    showDialog: bool,
    dialogMessage: string,
    unread: map<UserId, int>)

  /** A handler's effect: the next state and, possibly, a navigation. */
  datatype Step = Step(state: ChatState, nav: Option<Route>)

  const MessagingPremiumOnly := "Messaging is only available for Premium members."
  const VideoPremiumOnly := "Video call is only available for Premium members."

  /** `prev[id] || 0`: an absent key counts as zero. */
  function UnreadOf(unread: map<UserId, int>, id: UserId): int {
    if id in unread then unread[id] else 0
  }

  /** The open thread belongs to `id`. */
  predicate IsSelected(st: ChatState, id: UserId) {
    st.selected.Some? && st.selected.value.id == id
  }

  // ---------------------------------------------------------------------
  // Incoming messages

  /** `handleIncomingMessage({from, message})`: a message from the peer whose
      thread is open is appended to that thread; any other message (or any
      message while no thread is open) bumps only its sender's counter. The
      two effects never happen together. */
  function HandleIncomingMessage(st: ChatState, from: UserId, body: string, now: int): (r: ChatState)
    ensures IsSelected(st, from) ==>
      && r.messages == st.messages + [Message(false, body, now)]
      && r.unread == st.unread
    ensures !IsSelected(st, from) ==>
      && r.messages == st.messages
      && r.unread.Keys == st.unread.Keys + {from}
      && UnreadOf(r.unread, from) == UnreadOf(st.unread, from) + 1
      && (forall k :: k != from ==> UnreadOf(r.unread, k) == UnreadOf(st.unread, k))
    ensures r.(messages := st.messages, unread := st.unread) == st
  {
    if IsSelected(st, from) then
      st.(messages := st.messages + [Message(false, body, now)])
    else
      st.(unread := st.unread[from := UnreadOf(st.unread, from) + 1])
  }

  /** A `new-message` socket event. */
  datatype Incoming = Incoming(from: UserId, body: string, timestamp: int)

  /** Delivering a run of socket events one after another. */
  function ReceiveAll(st: ChatState, events: seq<Incoming>): ChatState
    decreases |events|
  {
    if |events| == 0 then st
    else ReceiveAll(HandleIncomingMessage(st, events[0].from, events[0].body, events[0].timestamp), events[1..])
  }

  /** How many of `events` were sent by `id`. */
  function CountFrom(events: seq<Incoming>, id: UserId): nat {
    if |events| == 0 then 0
    else (if events[0].from == id then 1 else 0) + CountFrom(events[1..], id)
  }

  /** The thread lines that the events from `id` become, in arrival order. */
  function ThreadFrom(events: seq<Incoming>, id: UserId): seq<Message> {
    if |events| == 0 then []
    else
      (if events[0].from == id then [Message(false, events[0].body, events[0].timestamp)] else [])
      + ThreadFrom(events[1..], id)
  }

  /** The unread invariant: while `p`'s thread is not open, its counter grows
      by exactly the number of messages `p` sent, whatever else arrives. */
  lemma {:induction false} ReceiveAllCountsUnselected(st: ChatState, events: seq<Incoming>, p: UserId)
    requires !IsSelected(st, p)
    ensures UnreadOf(ReceiveAll(st, events).unread, p) == UnreadOf(st.unread, p) + CountFrom(events, p)
    ensures ReceiveAll(st, events).selected == st.selected
    decreases |events|
  {
    if |events| > 0 {
      var e := events[0];
      var st1 := HandleIncomingMessage(st, e.from, e.body, e.timestamp);
      ReceiveAllCountsUnselected(st1, events[1..], p);
    }
  }

  /** No double counting: while `q`'s thread is open, exactly `q`'s messages
      are appended to it, in order, and `q`'s counter does not move. */
  lemma {:induction false} ReceiveAllOpenThread(st: ChatState, events: seq<Incoming>, q: UserId)
    requires IsSelected(st, q)
    ensures ReceiveAll(st, events).messages == st.messages + ThreadFrom(events, q)
    ensures UnreadOf(ReceiveAll(st, events).unread, q) == UnreadOf(st.unread, q)
    ensures ReceiveAll(st, events).selected == st.selected
    decreases |events|
  {
    if |events| > 0 {
      var e := events[0];
      var st1 := HandleIncomingMessage(st, e.from, e.body, e.timestamp);
      ReceiveAllOpenThread(st1, events[1..], q);
      var head := if e.from == q then [Message(false, e.body, e.timestamp)] else [];
      assert st1.messages == st.messages + head;
      assert ThreadFrom(events, q) == head + ThreadFrom(events[1..], q);
      assert st1.messages + ThreadFrom(events[1..], q) == st.messages + ThreadFrom(events, q);
    }
  }

  // ---------------------------------------------------------------------
  // Loading

  /** The message history for `peerId` arrived: it replaces the thread
      wholesale and that peer's counter key is deleted; every other counter
      is kept as it was. */
  function HistoryLoaded(st: ChatState, peerId: UserId, history: seq<Message>): (r: ChatState)
    ensures r.messages == history
    ensures peerId !in r.unread && UnreadOf(r.unread, peerId) == 0
    ensures forall k :: k != peerId ==> (k in r.unread <==> k in st.unread)
    ensures forall k :: k != peerId ==> UnreadOf(r.unread, k) == UnreadOf(st.unread, k)
    ensures r.(messages := st.messages, unread := st.unread) == st
  {
    st.(messages := history, unread := st.unread - {peerId})
  }

  /** The `/api/chat/unread` snapshot arrived; a null body counts as no
      unread messages. */
  function UnreadSnapshotLoaded(st: ChatState, snapshot: Option<map<UserId, int>>): (r: ChatState)
    ensures snapshot.Some? ==> r.unread == snapshot.value
    ensures snapshot.None? ==> r.unread == map[]
    ensures r.(unread := st.unread) == st
  {
    st.(unread := snapshot.GetOr(map[]))
  }

  /** `location.state?.userId && location.state?.userName`: both present and
      non-empty. */
  predicate RedirectsTo(redirect: Option<ChatTarget>) {
    redirect.Some? && redirect.value.userId != "" && redirect.value.userName != ""
  }

  predicate HasId(ps: seq<Peer>, id: UserId) {
    exists i :: 0 <= i < |ps| && ps[i].id == id
  }

  /** No two conversations share an id. */
  predicate DistinctIds(ps: seq<Peer>) {
    forall i, j :: 0 <= i < j < |ps| ==> ps[i].id != ps[j].id
  }

  /** The conversation list arrived. With a redirect, the named peer is put
      in front of the list unless a conversation with that id already exists,
      and it becomes the open thread (a call is started if asked for);
      without one, the first conversation is opened only if nothing is open
      yet. */
  function ConversationsLoaded(st: ChatState, fetched: seq<Peer>, redirect: Option<ChatTarget>): (r: Step)
    ensures RedirectsTo(redirect) ==>
      var p := Peer(redirect.value.userId, redirect.value.userName, "");
      && r.state.selected == Some(p)
      && HasId(r.state.conversations, p.id)
      && (HasId(fetched, p.id) ==> r.state.conversations == fetched)
      && (!HasId(fetched, p.id) ==> r.state.conversations == [p] + fetched)
      && (DistinctIds(fetched) ==> DistinctIds(r.state.conversations))
      && (r.nav.Some? <==> redirect.value.initiatingCall)
      && (r.nav.Some? ==> r.nav.value == VideoCall(p.id, p.name))
    ensures !RedirectsTo(redirect) ==>
      && r.state.conversations == fetched
      && r.nav.None?
      && (|fetched| > 0 && st.selected.None? ==> r.state.selected == Some(fetched[0]))
      && (|fetched| == 0 || st.selected.Some? ==> r.state.selected == st.selected)
    ensures r.state.(conversations := st.conversations, selected := st.selected) == st
  {
    if RedirectsTo(redirect) then
      var p := Peer(redirect.value.userId, redirect.value.userName, "");
      var present := exists i :: 0 <= i < |fetched| && fetched[i].id == p.id;
      var users := if present then fetched else [p] + fetched;
      assert !present ==> users[0] == p;
      assert !present ==> forall i :: 0 <= i < |fetched| ==> users[i + 1] == fetched[i];
      var nav := if redirect.value.initiatingCall then Some(VideoCall(p.id, p.name)) else None;
      Step(st.(conversations := users, selected := Some(p)), nav)
    else if |fetched| > 0 && st.selected.None? then
      Step(st.(conversations := fetched, selected := Some(fetched[0])), None)
    else
      Step(st.(conversations := fetched), None)
  }

  /** Clicking a conversation in the sidebar. */
  function SelectConversation(st: ChatState, peer: Peer): (r: ChatState)
    ensures IsSelected(r, peer.id)
    ensures r.(selected := st.selected) == st
  {
    st.(selected := Some(peer))
  }

  /** Opening `p`'s thread and receiving its history leaves `p` with no
      unread count, and from then on every message `p` sends lands in the
      thread instead of the counter. */
  lemma SelectThenReceive(st: ChatState, p: Peer, history: seq<Message>, events: seq<Incoming>)
    ensures var loaded := HistoryLoaded(SelectConversation(st, p), p.id, history);
      && UnreadOf(loaded.unread, p.id) == 0
      && ReceiveAll(loaded, events).messages == history + ThreadFrom(events, p.id)
      && UnreadOf(ReceiveAll(loaded, events).unread, p.id) == 0
  {
    var loaded := HistoryLoaded(SelectConversation(st, p), p.id, history);
    ReceiveAllOpenThread(loaded, events, p.id);
  }

  /** Selecting a conversation also re-runs the unread fetch, and its
      snapshot may arrive after the history: the open peer's counter then
      takes the snapshot's value again, and messages still go to the thread
      without moving it. */
  lemma SnapshotAfterHistory(st: ChatState, p: Peer, history: seq<Message>, snapshot: map<UserId, int>, events: seq<Incoming>)
    ensures var late := UnreadSnapshotLoaded(HistoryLoaded(SelectConversation(st, p), p.id, history), Some(snapshot));
      && UnreadOf(late.unread, p.id) == UnreadOf(snapshot, p.id)
      && UnreadOf(ReceiveAll(late, events).unread, p.id) == UnreadOf(snapshot, p.id)
      && ReceiveAll(late, events).messages == history + ThreadFrom(events, p.id)
  {
    var late := UnreadSnapshotLoaded(HistoryLoaded(SelectConversation(st, p), p.id, history), Some(snapshot));
    ReceiveAllOpenThread(late, events, p.id);
  }

  // ---------------------------------------------------------------------
  // Sending

  /** The REST call `sendMessage` makes. */
  datatype SendRequest = SendRequest(to: UserId, text: string)

  /** How the send request ended: a response (with its `success` flag) or a
      thrown error. */
  datatype SendOutcome = Responded(success: bool) | Failed

  datatype SendStep = SendStep(state: ChatState, request: Option<SendRequest>)

  /** `sendMessage()`. A free account gets the premium dialog before anything
      else is looked at; a blank draft or no open thread does nothing. Only a
      response carrying `success` appends the trimmed text as a sent line and
      clears the draft. */
  function SendMessage(st: ChatState, outcome: SendOutcome, now: int): (r: SendStep)
    ensures !st.isPremium ==>
      && r.request.None?
      && r.state == st.(showDialog := true, dialogMessage := MessagingPremiumOnly)
    ensures st.isPremium && (Text.AllWhitespace(st.draft) || st.selected.None? || st.selected.value.id == "") ==>
      r == SendStep(st, None)
    ensures r.request.Some? <==>
      st.isPremium && !Text.AllWhitespace(st.draft) && st.selected.Some? && st.selected.value.id != ""
    ensures r.request.Some? ==>
      && r.request.value.to == st.selected.value.id
      && r.request.value.text == Text.Trim(st.draft)
      && (outcome == Responded(true) ==>
            r.state == st.(messages := st.messages + [Message(true, Text.Trim(st.draft), now)], draft := ""))
      && (outcome != Responded(true) ==> r.state == st)
  {
    Text.TrimEmptyIff(st.draft);
    if !st.isPremium then
      SendStep(st.(showDialog := true, dialogMessage := MessagingPremiumOnly), None)
    else if Text.Trim(st.draft) == "" || st.selected.None? || st.selected.value.id == "" then
      SendStep(st, None)
    else
      var text := Text.Trim(st.draft);
      var request := Some(SendRequest(st.selected.value.id, text));
      if outcome == Responded(true) then
        SendStep(st.(messages := st.messages + [Message(true, text, now)], draft := ""), request)
      else
        SendStep(st, request)
  }

  /** A send never touches the unread counters, the open thread or the list
      of conversations, whatever its outcome. */
  lemma SendKeepsCounters(st: ChatState, outcome: SendOutcome, now: int)
    ensures var r := SendMessage(st, outcome, now).state;
      r.unread == st.unread && r.selected == st.selected && r.conversations == st.conversations
  {
  }

  /** A successful send and then a message from the open peer: the thread
      gains both, in that order, and no counter moves. */
  lemma SendThenReply(st: ChatState, now: int, body: string, t: int)
    requires st.isPremium && !Text.AllWhitespace(st.draft) && st.selected.Some? && st.selected.value.id != ""
    ensures var r := HandleIncomingMessage(SendMessage(st, Responded(true), now).state, st.selected.value.id, body, t);
      && r.messages == st.messages + [Message(true, Text.Trim(st.draft), now), Message(false, body, t)]
      && r.unread == st.unread
      && r.draft == ""
  {
    var sent := SendMessage(st, Responded(true), now).state;
    assert sent.messages == st.messages + [Message(true, Text.Trim(st.draft), now)];
  }

  /** A message from the open peer that arrives while the send is awaiting
      its response lands first: the thread shows messages in the order they
      reach the page, not the order they were written. */
  lemma ReplyWhileSending(st: ChatState, now: int, body: string, t: int)
    requires st.isPremium && !Text.AllWhitespace(st.draft) && st.selected.Some? && st.selected.value.id != ""
    ensures var r := SendMessage(HandleIncomingMessage(st, st.selected.value.id, body, t), Responded(true), now).state;
      && r.messages == st.messages + [Message(false, body, t), Message(true, Text.Trim(st.draft), now)]
      && r.unread == st.unread
  {
    var got := HandleIncomingMessage(st, st.selected.value.id, body, t);
    assert got.messages == st.messages + [Message(false, body, t)];
  }

  /** `handleVideoCall()`: premium first, then an open thread is needed. */
  function HandleVideoCall(st: ChatState): (r: Step)
    ensures !st.isPremium ==> r == Step(st.(showDialog := true, dialogMessage := VideoPremiumOnly), None)
    ensures st.isPremium ==> r.state == st
    ensures r.nav.Some? <==> st.isPremium && st.selected.Some?
    ensures r.nav.Some? ==> r.nav.value == VideoCall(st.selected.value.id, st.selected.value.name)
  {
    if !st.isPremium then
      Step(st.(showDialog := true, dialogMessage := VideoPremiumOnly), None)
    else if st.selected.None? then
      Step(st, None)
    else
      Step(st, Some(VideoCall(st.selected.value.id, st.selected.value.name)))
  }

  /** `closeDialog()` hides the dialog and forgets its text. */
  function CloseDialog(st: ChatState): (r: ChatState)
    ensures !r.showDialog && r.dialogMessage == ""
    ensures r.(showDialog := st.showDialog, dialogMessage := st.dialogMessage) == st
  {
    st.(showDialog := false, dialogMessage := "")
  }

  /** The sidebar badge for a conversation: shown only for a positive count,
      reading "99+" above 99 and the count otherwise. */
  function ConversationBadge(unread: map<UserId, int>, id: UserId): (r: Option<Badges.BadgeLabel>)
    ensures r.Some? <==> id in unread && unread[id] > 0
    ensures r.Some? ==> (r.value.Overflow? <==> unread[id] > 99)
    ensures r.Some? && r.value.Count? ==> r.value.n == unread[id]
  {
    if id in unread && unread[id] > 0 then Some(Badges.RenderBadgeCount(unread[id])) else None
  }
}

=== FILE: dashboard.dfy ===
/** The dashboard: the match candidates with their like/dislike buttons, the
    two navigation badges (unread chats, pending requests) and the profile
    completeness prompt. */
module Dashboard {
  import opened Wrappers
  import opened Routes
  import opened Matching
  import Seqs

  datatype DashboardState = DashboardState(
    users: seq<Candidate>,
    selected: Option<Candidate>,
    isPremium: bool,
    likeCountToday: int,
    showLikeLimitModal: bool,
    showPremiumFeatureModal: bool,
    chatUnreadCount: int,
    friendRequestsCount: int,
    showIncompleteProfileModal: bool)

  datatype Step = Step(state: DashboardState, nav: Option<Route>)

  // ---------------------------------------------------------------------
  // Badge counters

  function Sum(xs: seq<int>): int {
    if |xs| == 0 then 0 else xs[0] + Sum(xs[1..])
  }

  lemma {:induction false} SumAppend(a: seq<int>, b: seq<int>)
    ensures Sum(a + b) == Sum(a) + Sum(b)
  {
    if |a| > 0 {
      assert (a + b)[1..] == a[1..] + b;
      SumAppend(a[1..], b);
    } else {
      assert a + b == b;
    }
  }

  /** The total does not depend on the order `Object.values` lists the
      per-peer counts in. */
  lemma {:induction false} SumPermutation(a: seq<int>, b: seq<int>)
    requires multiset(a) == multiset(b)
    ensures Sum(a) == Sum(b)
    decreases |a|
  {
    if |a| > 0 {
      assert a[0] in multiset(b);
      var j :| 0 <= j < |b| && b[j] == a[0];
      var rest := b[..j] + b[j + 1..];
      assert b == b[..j] + [b[j]] + b[j + 1..];
      SumAppend(b[..j] + [b[j]], b[j + 1..]);
      SumAppend(b[..j], [b[j]]);
      SumAppend(b[..j], b[j + 1..]);
      assert a == [a[0]] + a[1..];
      assert multiset(a) == multiset{a[0]} + multiset(a[1..]);
      assert multiset(b) == multiset(b[..j]) + multiset{b[j]} + multiset(b[j + 1..]);
      assert multiset(rest) == multiset(b[..j]) + multiset(b[j + 1..]);
      assert multiset(a[1..]) == multiset(a) - multiset{a[0]};
      assert multiset(rest) == multiset(b) - multiset{b[j]};
      SumPermutation(a[1..], rest);
    }
  }

  /** The `/api/chat/unread` snapshot arrived (as the list of its per-peer
      counts): the chat badge becomes their sum. A failed fetch leaves the
      state alone. */
  function UnreadChatsLoaded(st: DashboardState, counts: Option<seq<int>>): (r: DashboardState)
    ensures counts.Some? ==> r.chatUnreadCount == Sum(counts.value)
    ensures counts.None? ==> r == st
    ensures r.(chatUnreadCount := st.chatUnreadCount) == st
  {
    match counts
    case None => st
    case Some(cs) => st.(chatUnreadCount := Sum(cs))
  }

  /** `fetchFriendRequests()`: the request badge is the length of the fetched
      list, or 0 when the fetch fails. */
  function RequestsLoaded(st: DashboardState, requests: Option<seq<UserId>>): (r: DashboardState)
    ensures requests.Some? ==> r.friendRequestsCount == |requests.value|
    ensures requests.None? ==> r.friendRequestsCount == 0
    ensures r.(friendRequestsCount := st.friendRequestsCount) == st
  {
    st.(friendRequestsCount := if requests.Some? then |requests.value| else 0)
  }

  /** The socket events the dashboard listens to. */
  datatype Event = NewMessage | NewLike

  /** `new-message` adds one to the chat badge and `new-like` adds one to the
      request badge; neither touches anything else. */
  function OnEvent(st: DashboardState, e: Event): (r: DashboardState)
    ensures e == NewMessage ==> r == st.(chatUnreadCount := st.chatUnreadCount + 1)
    ensures e == NewLike ==> r == st.(friendRequestsCount := st.friendRequestsCount + 1)
  {
    match e
    case NewMessage => st.(chatUnreadCount := st.chatUnreadCount + 1)
    case NewLike => st.(friendRequestsCount := st.friendRequestsCount + 1)
  }

  function OnEvents(st: DashboardState, events: seq<Event>): DashboardState
    decreases |events|
  {
    if |events| == 0 then st else OnEvents(OnEvent(st, events[0]), events[1..])
  }

  function Occurrences(events: seq<Event>, e: Event): nat {
    if |events| == 0 then 0 else (if events[0] == e then 1 else 0) + Occurrences(events[1..], e)
  }

  /** Over any interleaving of socket events, each badge grows by exactly the
      number of events of its own kind. */
  lemma {:induction false} EventsCountSeparately(st: DashboardState, events: seq<Event>)
    ensures OnEvents(st, events).chatUnreadCount == st.chatUnreadCount + Occurrences(events, NewMessage)
    ensures OnEvents(st, events).friendRequestsCount == st.friendRequestsCount + Occurrences(events, NewLike)
    ensures OnEvents(st, events).(chatUnreadCount := st.chatUnreadCount,
                                  friendRequestsCount := st.friendRequestsCount) == st
    decreases |events|
  {
    if |events| > 0 {
      EventsCountSeparately(OnEvent(st, events[0]), events[1..]);
    }
  }

  /** `handleGoToChats()`: only the chat badge is zeroed. */
  function GoToChats(st: DashboardState): (r: Step)
    ensures r.state.chatUnreadCount == 0
    ensures r.state.(chatUnreadCount := st.chatUnreadCount) == st
    ensures r.nav == Some(Chats(None))
  {
    Step(st.(chatUnreadCount := 0), Some(Chats(None)))
  }

  /** `handleGoToFriends()`: only the request badge is zeroed. */
  function GoToFriends(st: DashboardState): (r: Step)
    ensures r.state.friendRequestsCount == 0
    ensures r.state.(friendRequestsCount := st.friendRequestsCount) == st
    ensures r.nav == Some(Friends)
  {
    Step(st.(friendRequestsCount := 0), Some(Friends))
  }

  // ---------------------------------------------------------------------
  // Like / dislike

  datatype ActionStep = ActionStep(state: DashboardState, request: Option<ActionRequest>)

  /** `handleAction(userId, action)`, with `succeeded` the fate of the POST.
      A like by a free account at the daily limit only opens the limit modal
      and sends nothing. Otherwise the action is sent; on success the target
      leaves the list (the rest keep their order) and a free account's like
      is counted; on failure nothing changes. */
  function HandleAction(st: DashboardState, userId: UserId, action: Action, succeeded: bool): (r: ActionStep)
    ensures LikeBlocked(st.isPremium, action, st.likeCountToday) ==>
      r == ActionStep(st.(showLikeLimitModal := true), None)
    ensures !LikeBlocked(st.isPremium, action, st.likeCountToday) ==>
      && r.request == Some(ActionRequest(userId, action))
      && (!succeeded ==> r.state == st)
      && (succeeded ==>
            && r.state.users == RemoveCandidate(st.users, userId)
            && (forall u :: u in r.state.users <==> u in st.users && u.id != userId)
            && Seqs.IsSubsequence(r.state.users, st.users)
            && r.state.likeCountToday == LikesAfter(st.isPremium, action, st.likeCountToday)
            && r.state.(users := st.users, likeCountToday := st.likeCountToday) == st)
    ensures !st.isPremium && st.likeCountToday <= DailyLikeLimit ==> r.state.likeCountToday <= DailyLikeLimit
  {
    if LikeBlocked(st.isPremium, action, st.likeCountToday) then
      ActionStep(st.(showLikeLimitModal := true), None)
    else if !succeeded then
      ActionStep(st, Some(ActionRequest(userId, action)))
    else
      ActionStep(st.(users := RemoveCandidate(st.users, userId),
                     likeCountToday := LikesAfter(st.isPremium, action, st.likeCountToday)),
                 Some(ActionRequest(userId, action)))
  }

  /** One click on a like or dislike button, with the fate of its request. */
  datatype Attempt = Attempt(userId: UserId, action: Action, succeeded: bool)

  function HandleActions(st: DashboardState, attempts: seq<Attempt>): DashboardState
    decreases |attempts|
  {
    if |attempts| == 0 then st
    else
      var a := attempts[0];
      HandleActions(HandleAction(st, a.userId, a.action, a.succeeded).state, attempts[1..])
  }

  /** However many clicks a free account makes in a day, the like counter
      never passes the daily limit, and the account never becomes premium. */
  lemma {:induction false} DailyLimitHolds(st: DashboardState, attempts: seq<Attempt>)
    requires !st.isPremium && st.likeCountToday <= DailyLikeLimit
    ensures HandleActions(st, attempts).likeCountToday <= DailyLikeLimit
    ensures !HandleActions(st, attempts).isPremium
    decreases |attempts|
  {
    if |attempts| > 0 {
      var a := attempts[0];
      DailyLimitHolds(HandleAction(st, a.userId, a.action, a.succeeded).state, attempts[1..]);
    }
  }

  // ---------------------------------------------------------------------
  // Clicks and responses as separate steps
  //
  // `handleAction` awaits its POST between the limit check and the counter
  // increment, so a second click can pass the check while the first like is
  // still on its way. Here a click and its response are separate events.

  /** The page, the action requests still awaiting their response (in the
      order they were sent), and a tally the page itself does not keep: how
      many likes were clicked while another like was still awaiting its
      response. */
  datatype Session = Session(page: DashboardState, inFlight: seq<ActionRequest>, overlapping: nat)

  /** How many of the requests are likes. */
  function PendingLikes(reqs: seq<ActionRequest>): nat {
    if |reqs| == 0 then 0 else (if reqs[0].action == Like then 1 else 0) + PendingLikes(reqs[1..])
  }

  lemma {:induction false} PendingLikesAppend(a: seq<ActionRequest>, b: seq<ActionRequest>)
    ensures PendingLikes(a + b) == PendingLikes(a) + PendingLikes(b)
    decreases |a|
  {
    if |a| == 0 {
      assert a + b == b;
    } else {
      assert (a + b)[1..] == a[1..] + b;
      PendingLikesAppend(a[1..], b);
    }
  }

  lemma PendingLikesRemoveAt(reqs: seq<ActionRequest>, k: nat)
    requires k < |reqs|
    ensures PendingLikes(Seqs.RemoveAt(reqs, k)) + (if reqs[k].action == Like then 1 else 0) == PendingLikes(reqs)
  {
    var before, x, after := reqs[..k], reqs[k], reqs[k + 1..];
    assert Seqs.RemoveAt(reqs, k) == before + after;
    assert reqs == (before + [x]) + after;
    assert [x][1..] == [];
    assert PendingLikes([x]) == (if x.action == Like then 1 else 0);
    PendingLikesAppend(before + [x], after);
    PendingLikesAppend(before, [x]);
    PendingLikesAppend(before, after);
  }

  /** A click as the page handles it: the limit check reads the counter as
      it stands at the click, whatever likes are still awaiting their
      response. A refused like only opens the limit modal; any other click
      sends its request and changes nothing else until the response. */
  function Click(s: Session, userId: UserId, action: Action): (r: Session)
    ensures LikeBlocked(s.page.isPremium, action, s.page.likeCountToday) ==>
      r == s.(page := s.page.(showLikeLimitModal := true))
    ensures !LikeBlocked(s.page.isPremium, action, s.page.likeCountToday) ==>
      && r.page == s.page
      && r.inFlight == s.inFlight + [ActionRequest(userId, action)]
      && r.overlapping == s.overlapping + (if action == Like && PendingLikes(s.inFlight) > 0 then 1 else 0)
  {
    if LikeBlocked(s.page.isPremium, action, s.page.likeCountToday) then
      s.(page := s.page.(showLikeLimitModal := true))
    else
      var overlap := if action == Like && PendingLikes(s.inFlight) > 0 then 1 else 0;
      s.(inFlight := s.inFlight + [ActionRequest(userId, action)], overlapping := s.overlapping + overlap)
  }

  /** The limit check as intended: a free account's like is refused when the
      likes already counted plus those still awaiting their response reach
      the limit. With no like in flight it is the page's own click. */
  function ClickCounted(s: Session, userId: UserId, action: Action): (r: Session)
    ensures PendingLikes(s.inFlight) == 0 ==> r == Click(s, userId, action)
    ensures !s.page.isPremium && action == Like && s.page.likeCountToday + PendingLikes(s.inFlight) >= DailyLikeLimit ==>
      r == s.(page := s.page.(showLikeLimitModal := true))
    ensures !(!s.page.isPremium && action == Like && s.page.likeCountToday + PendingLikes(s.inFlight) >= DailyLikeLimit) ==>
      && r.page == s.page
      && r.inFlight == s.inFlight + [ActionRequest(userId, action)]
  {
    if !s.page.isPremium && action == Like && s.page.likeCountToday + PendingLikes(s.inFlight) >= DailyLikeLimit then
      s.(page := s.page.(showLikeLimitModal := true))
    else
      var overlap := if action == Like && PendingLikes(s.inFlight) > 0 then 1 else 0;
      s.(inFlight := s.inFlight + [ActionRequest(userId, action)], overlapping := s.overlapping + overlap)
  }

  /** The response to the `k`-th request in flight (responses may come back
      in any order; an index past the list names no request and changes
      nothing). The request leaves the list; on success its target leaves
      the candidates and a free account's like is counted. */
  function Respond(s: Session, k: nat, succeeded: bool): (r: Session)
    ensures k >= |s.inFlight| ==> r == s
    ensures k < |s.inFlight| ==>
      && r.inFlight == Seqs.RemoveAt(s.inFlight, k)
      && r.overlapping == s.overlapping
      && (!succeeded ==> r.page == s.page)
      && (succeeded ==>
            && r.page.users == RemoveCandidate(s.page.users, s.inFlight[k].targetUserId)
            && r.page.likeCountToday == LikesAfter(s.page.isPremium, s.inFlight[k].action, s.page.likeCountToday)
            && r.page.(users := s.page.users, likeCountToday := s.page.likeCountToday) == s.page)
  {
    if k >= |s.inFlight| then s
    else
      var req := s.inFlight[k];
      var page := if succeeded then
                    s.page.(users := RemoveCandidate(s.page.users, req.targetUserId),
                            likeCountToday := LikesAfter(s.page.isPremium, req.action, s.page.likeCountToday))
                  else s.page;
      s.(page := page, inFlight := Seqs.RemoveAt(s.inFlight, k))
  }

  /** With nothing in flight, a click followed at once by its response is
      the single-step `HandleAction`. */
  lemma ClickThenRespondIsHandleAction(st: DashboardState, userId: UserId, action: Action, succeeded: bool)
    ensures var s := Click(Session(st, [], 0), userId, action);
      && (LikeBlocked(st.isPremium, action, st.likeCountToday) ==>
            s == Session(HandleAction(st, userId, action, succeeded).state, [], 0))
      && (!LikeBlocked(st.isPremium, action, st.likeCountToday) ==>
            Respond(s, 0, succeeded) == Session(HandleAction(st, userId, action, succeeded).state, [], 0))
  {
    var s := Click(Session(st, [], 0), userId, action);
    if !LikeBlocked(st.isPremium, action, st.likeCountToday) {
      assert s.inFlight == [ActionRequest(userId, action)];
      assert Seqs.RemoveAt(s.inFlight, 0) == [];
    }
  }

  datatype SessionEvent = Clicked(userId: UserId, action: Action) | Responded(k: nat, succeeded: bool)

  /** Runs the events; `counted` chooses the intended limit check over the
      page's own. */
  function RunSession(s: Session, es: seq<SessionEvent>, counted: bool): Session
    decreases |es|
  {
    if |es| == 0 then s
    else
      var next := match es[0]
        case Clicked(u, a) => if counted then ClickCounted(s, u, a) else Click(s, u, a)
        case Responded(k, ok) => Respond(s, k, ok);
      RunSession(next, es[1..], counted)
  }

  /** The page's bound, counting likes still in flight as if they will
      succeed: at most the limit plus the overlapping likes. */
  predicate WithinLimit(s: Session) {
    s.page.likeCountToday + PendingLikes(s.inFlight) <= DailyLikeLimit + s.overlapping
  }

  /** Under the page's own check, a free account's counter never exceeds the
      limit by more than the number of likes clicked while another like was
      awaiting its response; when likes never overlap, the limit holds. */
  lemma {:induction false} OverlapBound(s: Session, es: seq<SessionEvent>)
    requires !s.page.isPremium && WithinLimit(s)
    ensures WithinLimit(RunSession(s, es, false)) && !RunSession(s, es, false).page.isPremium
    ensures RunSession(s, es, false).page.likeCountToday <= DailyLikeLimit + RunSession(s, es, false).overlapping
    decreases |es|
  {
    if |es| > 0 {
      var next := match es[0]
        case Clicked(u, a) => Click(s, u, a)
        case Responded(k, ok) => Respond(s, k, ok);
      match es[0] {
        case Clicked(u, a) =>
          PendingLikesAppend(s.inFlight, [ActionRequest(u, a)]);
        case Responded(k, ok) =>
          if k < |s.inFlight| {
            PendingLikesRemoveAt(s.inFlight, k);
          }
      }
      assert WithinLimit(next);
      OverlapBound(next, es[1..]);
    }
  }

  /** Two likes clicked at 9 before the first response arrives both pass the
      check, and once both succeed the counter stands at 11. */
  lemma OverlappingLikesPassLimit(st: DashboardState, a: UserId, b: UserId)
    requires !st.isPremium && st.likeCountToday == 9
    ensures var s := RunSession(Session(st, [], 0), [Clicked(a, Like), Clicked(b, Like), Responded(0, true), Responded(0, true)], false);
      s.page.likeCountToday == 11 && s.overlapping == 1 && s.inFlight == []
  {
    var s0 := Session(st, [], 0);
    var s1 := Click(s0, a, Like);
    var s2 := Click(s1, b, Like);
    assert s2.inFlight == [ActionRequest(a, Like), ActionRequest(b, Like)];
    var s3 := Respond(s2, 0, true);
    assert s3.inFlight == [ActionRequest(b, Like)];
    var s4 := Respond(s3, 0, true);
    assert s4.inFlight == [];
    var es := [Clicked(a, Like), Clicked(b, Like), Responded(0, true), Responded(0, true)];
    assert es[1..] == [Clicked(b, Like), Responded(0, true), Responded(0, true)];
    assert es[1..][1..] == [Responded(0, true), Responded(0, true)];
    assert es[1..][1..][1..] == [Responded(0, true)];
    assert RunSession(s3, es[1..][1..][1..], false) == RunSession(s4, [], false) == s4;
    assert RunSession(s2, es[1..][1..], false) == s4;
    assert RunSession(s1, es[1..], false) == s4;
  }

  /** Counting the likes in flight in the check keeps a free account within
      the limit, whatever the order of clicks and responses. */
  lemma {:induction false} CountedLimitHolds(s: Session, es: seq<SessionEvent>)
    requires !s.page.isPremium && s.page.likeCountToday + PendingLikes(s.inFlight) <= DailyLikeLimit
    ensures var r := RunSession(s, es, true);
      r.page.likeCountToday + PendingLikes(r.inFlight) <= DailyLikeLimit && r.page.likeCountToday <= DailyLikeLimit
    decreases |es|
  {
    if |es| > 0 {
      var next := match es[0]
        case Clicked(u, a) => ClickCounted(s, u, a)
        case Responded(k, ok) => Respond(s, k, ok);
      match es[0] {
        case Clicked(u, a) =>
          PendingLikesAppend(s.inFlight, [ActionRequest(u, a)]);
        case Responded(k, ok) =>
          if k < |s.inFlight| {
            PendingLikesRemoveAt(s.inFlight, k);
          }
      }
      assert !next.page.isPremium && next.page.likeCountToday + PendingLikes(next.inFlight) <= DailyLikeLimit;
      CountedLimitHolds(next, es[1..]);
    }
  }

  // ---------------------------------------------------------------------
  // Premium-only shortcuts from the profile modal

  /** `goToChat()`: free accounts get the premium modal; otherwise the chat
      screen opens on the selected candidate, if any. */
  function GoToChat(st: DashboardState): (r: Step)
    ensures !st.isPremium ==> r == Step(st.(showPremiumFeatureModal := true), None)
    ensures st.isPremium ==> r.state == st
    ensures st.isPremium && st.selected.Some? ==>
      r.nav == Some(Chats(Some(ChatTarget(st.selected.value.id, st.selected.value.name, false))))
    ensures st.selected.None? ==> r.nav.None?
  {
    if !st.isPremium then Step(st.(showPremiumFeatureModal := true), None)
    else if st.selected.Some? then
      Step(st, Some(Chats(Some(ChatTarget(st.selected.value.id, st.selected.value.name, false)))))
    else Step(st, None)
  }

  /** `startVideoCall()`: free accounts get the premium modal; with a selected
      candidate the call screen opens and the selection is cleared. */
  function StartVideoCall(st: DashboardState): (r: Step)
    ensures !st.isPremium ==> r == Step(st.(showPremiumFeatureModal := true), None)
    ensures st.isPremium && st.selected.None? ==> r == Step(st, None)
    ensures st.isPremium && st.selected.Some? ==>
      r == Step(st.(selected := None), Some(VideoCall(st.selected.value.id, st.selected.value.name)))
  {
    if !st.isPremium then Step(st.(showPremiumFeatureModal := true), None)
    else if st.selected.None? then Step(st, None)
    else Step(st.(selected := None), Some(VideoCall(st.selected.value.id, st.selected.value.name)))
  }

  // ---------------------------------------------------------------------
  // Profile completeness

  /** The profile fields the completeness check reads; each may be missing. */
  datatype Profile = Profile(
    name: Option<string>,
    dob: Option<string>,
    gender: Option<string>,
    bio: Option<string>,
    photos: Option<seq<string>>)

  /** JavaScript truthiness of an optional string. */
  predicate Present(s: Option<string>) {
    s.Some? && s.value != ""
  }

  /** The profile is incomplete when any of name, date of birth, gender or
      bio is missing or empty, or there is no photo. */
  predicate IsIncomplete(p: Profile) {
    || !Present(p.name) || !Present(p.dob) || !Present(p.gender) || !Present(p.bio)
    || p.photos.None? || |p.photos.value| == 0
  }

  /** `checkProfileCompletion()`: the prompt opens exactly for an incomplete
      profile; a complete profile or a failed fetch leaves it as it was. */
  function ProfileCompletionChecked(st: DashboardState, profile: Option<Profile>): (r: DashboardState)
    ensures profile.Some? && IsIncomplete(profile.value) ==> r.showIncompleteProfileModal
    ensures !(profile.Some? && IsIncomplete(profile.value)) ==> r == st
    ensures r.(showIncompleteProfileModal := st.showIncompleteProfileModal) == st
  {
    if profile.Some? && IsIncomplete(profile.value) then st.(showIncompleteProfileModal := true) else st
  }

  /** Clicking the prompt's overlay closes it; nothing else changes. */
  function CloseIncompletePrompt(st: DashboardState): (r: DashboardState)
    ensures !r.showIncompleteProfileModal
    ensures r.(showIncompleteProfileModal := st.showIncompleteProfileModal) == st
  {
    st.(showIncompleteProfileModal := false)
  }

  /** One visit to the dashboard: the page mounts with the prompt closed and
      runs the completion check once, on the profile it fetched. */
  function Visit(st: DashboardState, fetched: Option<Profile>): DashboardState {
    ProfileCompletionChecked(st.(showIncompleteProfileModal := false), fetched)
  }

  /** On each visit the prompt opens exactly when that visit fetched an
      incomplete profile, whatever happened on earlier visits: a user who
      completes the profile and comes back sees no prompt, even if the last
      visit left it open. */
  lemma VisitShowsPromptIff(st: DashboardState, earlier: Option<Profile>, fetched: Option<Profile>)
    ensures Visit(st, fetched).showIncompleteProfileModal <==> fetched.Some? && IsIncomplete(fetched.value)
    ensures Visit(Visit(st, earlier), fetched).showIncompleteProfileModal == Visit(st, fetched).showIncompleteProfileModal
    ensures Visit(CloseIncompletePrompt(st), fetched) == Visit(st, fetched)
  {
  }
}

=== FILE: dates.dfy ===
/** Calendar dates as the `(getFullYear(), getMonth(), getDate())` triples the
    pages read off JavaScript `Date` objects, and the age computation that
    Match, Dashboard, Homepage, Profile and TravelDating each repeat. */
module Dates {
  import opened Wrappers

  datatype Date = Date(year: int, month: int, day: int)

  /** Calendar order: `a` is the same day as `b` or an earlier one. */
  predicate OnOrBefore(a: Date, b: Date) {
    || a.year < b.year
    || (a.year == b.year && (a.month < b.month || (a.month == b.month && a.day <= b.day)))
  }

  /** The same month and day, `n` years later. */
  function AddYears(d: Date, n: int): Date {
    d.(year := d.year + n)
  }

  /** `calculateAge(dob)`: the year difference, less one when this year's
      birthday (same month and day) is still ahead. The result is the number
      of completed years: the `age`-th anniversary has been reached and the
      next one has not. */
  function CalculateAge(birth: Date, today: Date): (age: int)
    ensures OnOrBefore(AddYears(birth, age), today)
    ensures !OnOrBefore(AddYears(birth, age + 1), today)
  {
    var years := today.year - birth.year;
    var m := today.month - birth.month;
    if m < 0 || (m == 0 && today.day < birth.day) then years - 1 else years
  }

  /** Only one number of years has the anniversary property, so it pins the
      age down. */
  lemma AgeIsUnique(birth: Date, today: Date, n: int)
    requires OnOrBefore(AddYears(birth, n), today)
    requires !OnOrBefore(AddYears(birth, n + 1), today)
    ensures n == CalculateAge(birth, today)
  {
  }

  /** What the Profile and TravelDating pages print for an age: nothing for a
      missing date of birth, otherwise the completed years. */
  datatype AgeText = Blank | Years(years: int)

  function AgeOrBlank(dob: Option<Date>, today: Date): (r: AgeText)
    ensures r.Blank? <==> dob.None?
    ensures dob.Some? ==> OnOrBefore(AddYears(dob.value, r.years), today)
                          && !OnOrBefore(AddYears(dob.value, r.years + 1), today)
  {
    match dob
    case None => Blank
    case Some(d) => Years(CalculateAge(d, today))
  }
}

=== FILE: homepage.dfy ===
/** The public landing page: the fetched public profiles, the one-at-a-time
    mobile carousel with its index, the card photo address, and the
    "Go to Dashboard" button. */
module Homepage {
  import opened Wrappers
  import Text
  import opened Routes

  /** A public profile; only the first photo is shown. */
  datatype PublicUser = PublicUser(id: string, name: string, photos: seq<string>)

  datatype HomeState = HomeState(users: seq<PublicUser>, index: int, showLoginModal: bool)

  datatype Step = Step(state: HomeState, nav: Option<Route>)

  /** The carousel index is on a profile, or 0 when there is none. */
  predicate IndexValid(st: HomeState) {
    st.index == 0 || 0 <= st.index < |st.users|
  }

  /** A new list of profiles (the fetch result, or an empty list when the
      response carries none); the effect on `users` then puts the carousel
      back on the first profile. */
  function UsersLoaded(st: HomeState, fetched: Option<seq<PublicUser>>): (r: HomeState)
    ensures r.users == fetched.GetOr([]) && r.index == 0
    ensures r.showLoginModal == st.showLoginModal
    ensures IndexValid(r)
  {
    st.(users := fetched.GetOr([]), index := 0)
  }

  /** `nextProfile`: moves on only while a later profile exists. */
  function NextProfile(st: HomeState): (r: HomeState)
    ensures st.index < |st.users| - 1 ==> r.index == st.index + 1
    ensures st.index >= |st.users| - 1 ==> r.index == st.index
    ensures r.(index := st.index) == st
    ensures IndexValid(st) ==> IndexValid(r)
  {
    if st.index < |st.users| - 1 then st.(index := st.index + 1) else st
  }

  /** `previousProfile`: moves back only while an earlier profile exists. */
  function PreviousProfile(st: HomeState): (r: HomeState)
    ensures st.index > 0 ==> r.index == st.index - 1
    ensures st.index <= 0 ==> r.index == st.index
    ensures r.(index := st.index) == st
    ensures IndexValid(st) ==> IndexValid(r)
  {
    if st.index > 0 then st.(index := st.index - 1) else st
  }

  /** Next and previous undo each other whenever the first one moved. */
  lemma NextThenPrevious(st: HomeState)
    requires IndexValid(st) && st.index < |st.users| - 1
    ensures PreviousProfile(NextProfile(st)) == st
  {
  }

  datatype CarouselEvent = Loaded(fetched: Option<seq<PublicUser>>) | Next | Previous

  function Apply(st: HomeState, e: CarouselEvent): HomeState {
    match e
    case Loaded(fetched) => UsersLoaded(st, fetched)
    case Next => NextProfile(st)
    case Previous => PreviousProfile(st)
  }

  function ApplyAll(st: HomeState, es: seq<CarouselEvent>): HomeState
    decreases |es|
  {
    if |es| == 0 then st else ApplyAll(Apply(st, es[0]), es[1..])
  }

  /** From the initial index 0, any sequence of loads and button presses
      keeps the carousel index between 0 and the last profile. */
  lemma {:induction false} CarouselStaysInRange(st: HomeState, es: seq<CarouselEvent>)
    requires IndexValid(st)
    ensures IndexValid(ApplyAll(st, es))
    decreases |es|
  {
    if |es| > 0 {
      CarouselStaysInRange(Apply(st, es[0]), es[1..]);
    }
  }

  /** What the mobile layout shows: one card with its "i of n" counter, or
      the "No profiles to show" message. */
  datatype MobileView = Card(user: PublicUser, position: int, total: int) | NoProfiles

  function MobileCard(st: HomeState): (v: MobileView)
    ensures v.Card? <==> |st.users| > 0 && 0 <= st.index < |st.users|
    ensures v.Card? ==> v.user == st.users[st.index] && v.position == st.index + 1 && v.total == |st.users|
  {
    if |st.users| > 0 && 0 <= st.index < |st.users| then Card(st.users[st.index], st.index + 1, |st.users|)
    else NoProfiles
  }

  /** With a valid index a card is shown exactly when there are profiles,
      and its counter lies between 1 and the number of profiles. */
  lemma CardShownIffProfiles(st: HomeState)
    requires IndexValid(st)
    ensures MobileCard(st).Card? <==> |st.users| > 0
    ensures MobileCard(st).Card? ==> 1 <= MobileCard(st).position <= MobileCard(st).total
  {
  }

  /** `path.replace(/^\//, '')`: at most one leading slash is dropped. */
  function StripLeadingSlash(path: string): (r: string)
    ensures |path| - |r| <= 1 && |r| <= |path|
    ensures path[|path| - |r|..] == r
    ensures |r| < |path| <==> Text.StartsWith(path, "/")
  {
    if |path| > 0 && path[0] == '/' then path[1..] else path
  }

  datatype ImageSrc = PhotoAt(url: string) | Placeholder

  /** A card's image: the first photo under the API base, or the built-in
      placeholder picture when the profile has none. */
  function CardPhoto(baseUrl: string, u: PublicUser): (r: ImageSrc)
    ensures r.Placeholder? <==> |u.photos| == 0
    ensures r.PhotoAt? ==> r.url == baseUrl + "/" + StripLeadingSlash(u.photos[0])
  {
    if |u.photos| > 0 then PhotoAt(baseUrl + "/" + StripLeadingSlash(u.photos[0])) else Placeholder
  }

  /** A stored path with one leading slash gives the same address as the
      same path without it; a second slash would survive. */
  lemma OneLeadingSlashIgnored(baseUrl: string, u: PublicUser, path: string)
    requires !Text.StartsWith(path, "/")
    ensures CardPhoto(baseUrl, u.(photos := ["/" + path])) == CardPhoto(baseUrl, u.(photos := [path]))
    ensures CardPhoto(baseUrl, u.(photos := ["//" + path])).url == baseUrl + "//" + path
  {
    assert ("/" + path)[1..] == path;
    assert ("//" + path)[1..] == "/" + path;
  }

  /** `handleGoToDashboard`: with a stored token, to the dashboard;
      otherwise the login dialog opens. */
  function GoToDashboard(st: HomeState, hasToken: bool): (r: Step)
    ensures hasToken ==> r == Step(st, Some(Dashboard))
    ensures !hasToken ==> r.nav.None? && r.state == st.(showLoginModal := true)
  {
    if hasToken then Step(st, Some(Dashboard)) else Step(st.(showLoginModal := true), None)
  }
}

=== FILE: match.dfy ===
/** The match page: candidate cards with like/dislike, a detail modal with
    premium-only message and call buttons, and the upsell dialog those
    buttons and the daily like limit open. */
module Match {
  import opened Wrappers
  import opened Routes
  import opened Matching
  import Seqs

  /** `dialogType`: '' (closed), 'like', 'message' or 'video'. */
  datatype DialogType = NoDialog | LikeLimitDialog | MessageDialog | VideoDialog

  datatype MatchState = MatchState(
    matches: seq<Candidate>,
    selected: Option<Candidate>,
    message: string,
    isPremium: bool,
    dailyLikes: int,
    dialogType: DialogType)

  datatype Step = Step(state: MatchState, nav: Option<Route>)
  datatype ActionStep = ActionStep(state: MatchState, request: Option<ActionRequest>)

  const ActionFailed := "Action failed"

  /** `handleAction(targetUserId, action)`, with `succeeded` the fate of the
      POST. A like by a free account at the daily limit only opens the 'like'
      dialog and sends nothing; dislikes and premium accounts always go
      through. On success exactly the target leaves the list, the rest in
      order, and only a free account's like is counted; a failure only sets
      the error message. */
  function HandleAction(st: MatchState, targetUserId: UserId, action: Action, succeeded: bool): (r: ActionStep)
    ensures LikeBlocked(st.isPremium, action, st.dailyLikes) ==>
      r == ActionStep(st.(dialogType := LikeLimitDialog), None)
    ensures action == Dislike || st.isPremium ==> r.request == Some(ActionRequest(targetUserId, action))
    ensures !LikeBlocked(st.isPremium, action, st.dailyLikes) ==>
      && r.request == Some(ActionRequest(targetUserId, action))
      && (!succeeded ==> r.state == st.(message := ActionFailed))
      && (succeeded ==>
            && r.state.matches == RemoveCandidate(st.matches, targetUserId)
            && (forall u :: u in r.state.matches <==> u in st.matches && u.id != targetUserId)
            && Seqs.IsSubsequence(r.state.matches, st.matches)
            && (forall u: Candidate :: u.id != targetUserId ==>
                  multiset(r.state.matches)[u] == multiset(st.matches)[u])
            && (r.state.dailyLikes == st.dailyLikes + 1 <==> action == Like && !st.isPremium)
            && (r.state.dailyLikes == st.dailyLikes || r.state.dailyLikes == st.dailyLikes + 1)
            && r.state.(matches := st.matches, dailyLikes := st.dailyLikes) == st)
    ensures !st.isPremium && st.dailyLikes <= DailyLikeLimit ==> r.state.dailyLikes <= DailyLikeLimit
  {
    if LikeBlocked(st.isPremium, action, st.dailyLikes) then
      ActionStep(st.(dialogType := LikeLimitDialog), None)
    else if !succeeded then
      ActionStep(st.(message := ActionFailed), Some(ActionRequest(targetUserId, action)))
    else
      ActionStep(st.(matches := RemoveCandidate(st.matches, targetUserId),
                     dailyLikes := LikesAfter(st.isPremium, action, st.dailyLikes)),
                 Some(ActionRequest(targetUserId, action)))
  }

  /** `goToChat()`: a free account gets the 'message' dialog and goes
      nowhere; a premium account with a selected card opens the chat screen
      on that user. */
  function GoToChat(st: MatchState): (r: Step)
    ensures !st.isPremium ==> r == Step(st.(dialogType := MessageDialog), None)
    ensures st.isPremium ==> r.state == st
    ensures r.nav.Some? <==> st.isPremium && st.selected.Some?
    ensures r.nav.Some? ==>
      r.nav.value == Chats(Some(ChatTarget(st.selected.value.id, st.selected.value.name, false)))
  {
    if !st.isPremium then Step(st.(dialogType := MessageDialog), None)
    else if st.selected.Some? then
      Step(st, Some(Chats(Some(ChatTarget(st.selected.value.id, st.selected.value.name, false)))))
    else Step(st, None)
  }

  /** `startVideoCall()`: a free account gets the 'video' dialog and goes
      nowhere; with no selected card nothing happens; otherwise the call
      screen opens on the selected user and the selection is cleared. */
  function StartVideoCall(st: MatchState): (r: Step)
    ensures !st.isPremium ==> r == Step(st.(dialogType := VideoDialog), None)
    ensures st.isPremium && st.selected.None? ==> r == Step(st, None)
    ensures st.isPremium && st.selected.Some? ==>
      r == Step(st.(selected := None), Some(VideoCall(st.selected.value.id, st.selected.value.name)))
  {
    if !st.isPremium then Step(st.(dialogType := VideoDialog), None)
    else if st.selected.None? then Step(st, None)
    else Step(st.(selected := None), Some(VideoCall(st.selected.value.id, st.selected.value.name)))
  }

  /** `closeDialog()` closes whichever dialog is open and nothing else. */
  function CloseDialog(st: MatchState): (r: MatchState)
    ensures r.dialogType == NoDialog
    ensures r.(dialogType := st.dialogType) == st
  {
    st.(dialogType := NoDialog)
  }
}

=== FILE: matching.dfy ===
/** What the Dashboard and Match pages share: the list of match candidates
    fetched from `/api/user/match`, the like/dislike action, the daily like
    limit for free accounts, and the removal of a candidate once acted on. */
module Matching {
  import Seqs

  type UserId = string

  datatype Candidate = Candidate(id: UserId, name: string)

  datatype Action = Like | Dislike

  /** A free account may like at most this many profiles a day. */
  const DailyLikeLimit := 10

  /** The limit check both pages run before sending an action: only a like
      by a free account that has reached the limit is refused. */
  predicate LikeBlocked(isPremium: bool, action: Action, likesToday: int) {
    !isPremium && action == Like && likesToday >= DailyLikeLimit
  }

  /** The body both pages send to `/api/user/match/action`. */
  datatype ActionRequest = ActionRequest(targetUserId: UserId, action: Action)

  /** `prev.filter(u => u._id !== id)`: every candidate with that id is gone;
      all the others stay, as often as before and in their original order. */
  function RemoveCandidate(users: seq<Candidate>, id: UserId): (r: seq<Candidate>)
    ensures forall u :: u in r <==> u in users && u.id != id
    ensures forall u: Candidate :: u.id != id ==> multiset(r)[u] == multiset(users)[u]
    ensures Seqs.IsSubsequence(r, users)
  {
    Seqs.Filter(users, (u: Candidate) => u.id != id)
  }

  /** A successful action counts against the daily limit only when it is a
      like by a free account. */
  function LikesAfter(isPremium: bool, action: Action, likesToday: int): (n: int)
    ensures n == likesToday || n == likesToday + 1
    ensures n == likesToday + 1 <==> action == Like && !isPremium
  {
    if action == Like && !isPremium then likesToday + 1 else likesToday
  }
}

=== FILE: profile.dfy ===
/** The profile editor: the photo strip that mixes photos already saved on
    the server with new local uploads (at most five in all), removal by
    position across the two backing lists, the slideshow index, the saved
    photo URLs with their cache-buster, the hobby toggle and the submit
    guard. */
module Profile {
  import opened Wrappers
  import Seqs
  import Text

  /** A file chosen in the upload input. */
  datatype Upload = Upload(name: string)

  /** Where a preview comes from: a saved photo (its stored path) or a new
      upload. */
  datatype PhotoSource = Saved(path: string) | Local(file: Upload)

  /** A thumbnail of the strip: its source and the URL it displays. */
  datatype Preview = Preview(source: PhotoSource, url: string)

  /** The fields sent along with the photos: the two habits, the
      relationship type, the bio and the location. */
  datatype Details = Details(smoking: string, drinking: string, relationshipType: string,
                             bio: string, country: string, state: string, city: string)

  datatype ProfileState = ProfileState(
    existing: seq<string>,
    images: seq<Upload>,
    previews: seq<Preview>,
    hobbies: seq<string>,
    currentPhoto: nat,
    details: Details,
    message: string)

  const MaxPhotos := 5
  const TooManyPhotos := "\U{274C} You can only upload up to 5 photos."
  const NeedAPhoto := "\U{274C} Upload at least 1 photo."
  const ProfileUpdated := "\U{2705} Profile updated successfully."
  const UpdateFailed := "\U{274C} Failed to update profile."

  // ----- the strip and its two backing lists -----

  function Sources(ps: seq<Preview>): (r: seq<PhotoSource>)
    ensures |r| == |ps| && forall k :: 0 <= k < |ps| ==> r[k] == ps[k].source
  {
    seq(|ps|, k requires 0 <= k < |ps| => ps[k].source)
  }

  function SavedSources(paths: seq<string>): (r: seq<PhotoSource>)
    ensures |r| == |paths| && forall k :: 0 <= k < |paths| ==> r[k] == Saved(paths[k])
  {
    seq(|paths|, k requires 0 <= k < |paths| => Saved(paths[k]))
  }

  function LocalSources(files: seq<Upload>): (r: seq<PhotoSource>)
    ensures |r| == |files| && forall k :: 0 <= k < |files| ==> r[k] == Local(files[k])
  {
    seq(|files|, k requires 0 <= k < |files| => Local(files[k]))
  }

  /** The strip shows the saved photos first, then the new uploads, one
      thumbnail each. */
  predicate Aligned(st: ProfileState) {
    Sources(st.previews) == SavedSources(st.existing) + LocalSources(st.images)
  }

  /** The slideshow index points at a thumbnail, or is 0 when there is
      none. */
  predicate IndexInRange(st: ProfileState) {
    st.currentPhoto < |st.previews| || st.currentPhoto == 0
  }

  /** The fields of the fetched profile the page reads; any may be
      missing. */
  datatype Fetched = Fetched(
    photos: Option<seq<string>>,
    hobbies: Option<seq<string>>,
    smoking: Option<string>,
    drinking: Option<string>,
    relationshipType: Option<string>,
    bio: Option<string>,
    country: Option<string>,
    state: Option<string>,
    city: Option<string>)

  /** The fetched profile: the saved photos (none when missing) become both
      the saved list and the strip, each shown through its cache-busted
      URL; the hobbies and the other fields are loaded with the page's
      defaults, `None` for the two habits and the empty string otherwise. */
  function ProfileLoaded(st: ProfileState, data: Fetched, baseUrl: string, nowMs: nat): (r: ProfileState)
    ensures r.existing == data.photos.GetOr([]) && |r.previews| == |r.existing|
    ensures forall k :: 0 <= k < |r.existing| ==>
      r.previews[k] == Preview(Saved(r.existing[k]), PhotoUrl(baseUrl, r.existing[k], nowMs))
    ensures r.hobbies == data.hobbies.GetOr([])
    ensures r.details == Details(OrDefault(data.smoking, "None"), OrDefault(data.drinking, "None"),
                                 OrDefault(data.relationshipType, ""), OrDefault(data.bio, ""),
                                 OrDefault(data.country, ""), OrDefault(data.state, ""), OrDefault(data.city, ""))
    ensures |st.images| == 0 ==> Aligned(r)
    ensures r.images == st.images && r.currentPhoto == st.currentPhoto && r.message == st.message
  {
    var saved := data.photos.GetOr([]);
    var previews := seq(|saved|, k requires 0 <= k < |saved| => Preview(Saved(saved[k]), PhotoUrl(baseUrl, saved[k], nowMs)));
    var details := Details(OrDefault(data.smoking, "None"), OrDefault(data.drinking, "None"),
                           OrDefault(data.relationshipType, ""), OrDefault(data.bio, ""),
                           OrDefault(data.country, ""), OrDefault(data.state, ""), OrDefault(data.city, ""));
    var r := st.(existing := saved, previews := previews, hobbies := data.hobbies.GetOr([]), details := details);
    assert |st.images| == 0 ==> LocalSources(st.images) == [];
    r
  }

  /** A profile loaded and submitted unchanged sends back what was loaded:
      the saved photos, the hobbies and the fields, with no new upload. */
  lemma LoadThenSubmit(st: ProfileState, data: Fetched, baseUrl: string, nowMs: nat, succeeded: bool)
    requires |st.images| == 0
    requires data.photos.Some? && |data.photos.value| > 0
    ensures var loaded := ProfileLoaded(st, data, baseUrl, nowMs);
      && Submit(loaded, succeeded).request.Some?
      && Submit(loaded, succeeded).request.value.existingPhotos == data.photos.value
      && Submit(loaded, succeeded).request.value.hobbies == data.hobbies.GetOr([])
      && Submit(loaded, succeeded).request.value.details == loaded.details
      && Submit(loaded, succeeded).request.value.photos == []
  {
  }

  /** `handleFileChange`: a batch that would take the strip past five
      photos is refused as a whole and only the message changes; otherwise
      every file is appended to the uploads and gets a thumbnail at the end
      of the strip. `objectUrl` stands for `URL.createObjectURL`. */
  function FileChange(st: ProfileState, files: seq<Upload>, objectUrl: Upload -> string): (r: ProfileState)
    ensures |st.previews| + |files| > MaxPhotos ==> r == st.(message := TooManyPhotos)
    ensures |st.previews| + |files| <= MaxPhotos ==>
      && r.images == st.images + files
      && |r.previews| == |st.previews| + |files| <= MaxPhotos
      && r.previews[..|st.previews|] == st.previews
      && (forall k :: 0 <= k < |files| ==> r.previews[|st.previews| + k] == Preview(Local(files[k]), objectUrl(files[k])))
      && r.(images := st.images, previews := st.previews) == st
    ensures IndexInRange(st) ==> IndexInRange(r)
  {
    if |st.previews| + |files| > MaxPhotos then st.(message := TooManyPhotos)
    else
      var added := seq(|files|, k requires 0 <= k < |files| => Preview(Local(files[k]), objectUrl(files[k])));
      var r := st.(images := st.images + files, previews := st.previews + added);
      assert r.previews[..|st.previews|] == st.previews;
      r
  }

  /** An accepted batch extends the strip and the uploads together. */
  lemma FileChangeKeepsAligned(st: ProfileState, files: seq<Upload>, objectUrl: Upload -> string)
    requires Aligned(st)
    ensures Aligned(FileChange(st, files, objectUrl))
  {
    var r := FileChange(st, files, objectUrl);
    if |st.previews| + |files| <= MaxPhotos {
      var added := r.previews[|st.previews|..];
      assert r.previews == st.previews + added;
      assert Sources(added) == LocalSources(files);
      SourcesAppend(st.previews, added);
      LocalSourcesAppend(st.images, files);
      calc {
        Sources(r.previews);
        Sources(st.previews) + LocalSources(files);
        (SavedSources(st.existing) + LocalSources(st.images)) + LocalSources(files);
        SavedSources(st.existing) + LocalSources(r.images);
      }
    }
  }

  lemma SourcesAppend(a: seq<Preview>, b: seq<Preview>)
    ensures Sources(a + b) == Sources(a) + Sources(b)
  {
  }

  lemma LocalSourcesAppend(a: seq<Upload>, b: seq<Upload>)
    ensures LocalSources(a + b) == LocalSources(a) + LocalSources(b)
  {
  }

  /** `removeImage(index)`: the thumbnail at `index` goes, together with the
      saved photo or the upload it shows; the slideshow falls back to the
      first photo when its index is now past the end. */
  function RemoveImage(st: ProfileState, index: nat): (r: ProfileState)
    ensures r.previews == Seqs.RemoveAt(st.previews, index)
    ensures index < |st.existing| ==> r.existing == Seqs.RemoveAt(st.existing, index) && r.images == st.images
    ensures index >= |st.existing| ==> r.existing == st.existing && r.images == Seqs.RemoveAt(st.images, index - |st.existing|)
    ensures r.currentPhoto == if st.currentPhoto >= |r.previews| then 0 else st.currentPhoto
    ensures IndexInRange(r)
    ensures r.(existing := st.existing, images := st.images, previews := st.previews, currentPhoto := st.currentPhoto) == st
  {
    var previews := Seqs.RemoveAt(st.previews, index);
    var current := if st.currentPhoto >= |previews| then 0 else st.currentPhoto;
    if index < |st.existing| then
      st.(previews := previews, existing := Seqs.RemoveAt(st.existing, index), currentPhoto := current)
    else
      st.(previews := previews, images := Seqs.RemoveAt(st.images, index - |st.existing|), currentPhoto := current)
  }

  /** Removal keeps the strip in step with its two backing lists: the
      thumbnail removed is exactly the photo removed from the saved list or
      from the uploads. */
  lemma RemoveImageKeepsAligned(st: ProfileState, index: nat)
    requires Aligned(st)
    ensures Aligned(RemoveImage(st, index))
  {
    var r := RemoveImage(st, index);
    var saved, local := SavedSources(st.existing), LocalSources(st.images);
    SourcesRemoveAt(st.previews, index);
    if index < |st.existing| {
      Seqs.RemoveAtConcatLeft(saved, local, index);
      SavedRemoveAt(st.existing, index);
    } else {
      Seqs.RemoveAtConcatRight(saved, local, index);
      LocalRemoveAt(st.images, index - |st.existing|);
    }
  }

  lemma SourcesRemoveAt(ps: seq<Preview>, i: nat)
    ensures Sources(Seqs.RemoveAt(ps, i)) == Seqs.RemoveAt(Sources(ps), i)
  {
  }

  lemma SavedRemoveAt(paths: seq<string>, i: nat)
    ensures SavedSources(Seqs.RemoveAt(paths, i)) == Seqs.RemoveAt(SavedSources(paths), i)
  {
  }

  lemma LocalRemoveAt(files: seq<Upload>, i: nat)
    ensures LocalSources(Seqs.RemoveAt(files, i)) == Seqs.RemoveAt(LocalSources(files), i)
  {
  }

  /** One slideshow step. The interval only runs while the strip has more
      than one photo; each step moves to the next photo, wrapping around. */
  function SlideshowTick(st: ProfileState): (r: ProfileState)
    ensures |st.previews| > 1 ==> r.currentPhoto < |st.previews|
    ensures |st.previews| > 1 && st.currentPhoto + 1 < |st.previews| ==> r.currentPhoto == st.currentPhoto + 1
    ensures |st.previews| > 1 && st.currentPhoto + 1 == |st.previews| ==> r.currentPhoto == 0
    ensures |st.previews| <= 1 ==> r == st
    ensures r.(currentPhoto := st.currentPhoto) == st
  {
    if |st.previews| > 1 then st.(currentPhoto := (st.currentPhoto + 1) % |st.previews|) else st
  }

  /** Events that change the strip or its index, in any order. */
  datatype StripEvent = Files(files: seq<Upload>) | Remove(index: nat) | Tick

  function ApplyStrip(st: ProfileState, e: StripEvent, objectUrl: Upload -> string): ProfileState {
    match e
    case Files(files) => FileChange(st, files, objectUrl)
    case Remove(i) => RemoveImage(st, i)
    case Tick => SlideshowTick(st)
  }

  function ApplyStripAll(st: ProfileState, es: seq<StripEvent>, objectUrl: Upload -> string): ProfileState
    decreases |es|
  {
    if |es| == 0 then st else ApplyStripAll(ApplyStrip(st, es[0], objectUrl), es[1..], objectUrl)
  }

  /** Whatever the user does to the strip, the thumbnails stay in step with
      the saved photos and uploads, and the slideshow index stays on a
      thumbnail. */
  lemma {:induction false} StripInvariant(st: ProfileState, es: seq<StripEvent>, objectUrl: Upload -> string)
    requires Aligned(st) && IndexInRange(st)
    ensures var r := ApplyStripAll(st, es, objectUrl);
      Aligned(r) && IndexInRange(r)
    decreases |es|
  {
    if |es| > 0 {
      var next := ApplyStrip(st, es[0], objectUrl);
      match es[0] {
        case Files(files) => FileChangeKeepsAligned(st, files, objectUrl);
        case Remove(i) => RemoveImageKeepsAligned(st, i);
        case Tick =>
      }
      StripInvariant(next, es[1..], objectUrl);
    }
  }

  // ----- photo URLs -----

  /** The address of a saved photo before the cache-buster: an absolute
      `http...` path is kept; anything else is a server path, joined to the
      API base with every backslash turned into a slash. */
  function PhotoBase(baseUrl: string, path: string): (r: string)
    ensures Text.StartsWith(path, "http") ==> r == path
    ensures !Text.StartsWith(path, "http") ==>
      && |r| == |baseUrl| + 1 + |path|
      && r[..|baseUrl| + 1] == baseUrl + "/"
      && (forall k :: 0 <= k < |path| ==> r[|baseUrl| + 1 + k] == if path[k] == '\\' then '/' else path[k])
  {
    if Text.StartsWith(path, "http") then path
    else
      var fixed := Text.ReplaceChar(path, '\\', '/');
      var r := baseUrl + "/" + fixed;
      assert r[..|baseUrl| + 1] == baseUrl + "/";
      r
  }

  /** The displayed URL: the base address, then `&` if it already has a
      query string and `?` if not, then `t=` and the fetch time. */
  function PhotoUrl(baseUrl: string, path: string, nowMs: nat): (r: string)
    ensures var b := PhotoBase(baseUrl, path);
      && |r| > |b| + 2
      && r[..|b|] == b
      && r[|b|] == (if '?' in b then '&' else '?')
      && r[|b| + 1..] == "t=" + Text.Decimal(nowMs)
  {
    var b := PhotoBase(baseUrl, path);
    var r := b + [if '?' in b then '&' else '?'] + "t=" + Text.Decimal(nowMs);
    assert r[..|b|] == b;
    assert r[|b| + 1..] == "t=" + Text.Decimal(nowMs);
    r
  }

  /** Every photo URL carries a query string, and its cache-buster reads
      back as the fetch time. */
  lemma PhotoUrlHasStamp(baseUrl: string, path: string, nowMs: nat)
    ensures var r := PhotoUrl(baseUrl, path, nowMs);
      && '?' in r
      && var stamp := r[|PhotoBase(baseUrl, path)| + 3..];
         Text.AllDigits(stamp) && Text.DecimalValue(stamp) == nowMs
  {
    var b := PhotoBase(baseUrl, path);
    var r := PhotoUrl(baseUrl, path, nowMs);
    if '?' in b {
      var k :| 0 <= k < |b| && b[k] == '?';
      assert r[k] == '?';
    } else {
      assert r[|b|] == '?';
    }
    assert r[|b| + 3..] == (r[|b| + 1..])[2..];
    assert ("t=" + Text.Decimal(nowMs))[2..] == Text.Decimal(nowMs);
    Text.DecimalRoundTrip(nowMs);
  }

  // ----- hobbies and submit -----

  /** `handleHobbyToggle`. */
  function HobbyToggle(st: ProfileState, hobby: string): (r: ProfileState)
    ensures hobby in r.hobbies <==> hobby !in st.hobbies
    ensures forall h :: h != hobby ==> (h in r.hobbies <==> h in st.hobbies)
    ensures r.(hobbies := st.hobbies) == st
  {
    st.(hobbies := Seqs.Toggle(st.hobbies, hobby))
  }

  /** The multipart body of the profile update. */
  datatype ProfileUpdate = ProfileUpdate(photos: seq<Upload>, existingPhotos: seq<string>, hobbies: seq<string>, details: Details)

  datatype SubmitStep = SubmitStep(state: ProfileState, request: Option<ProfileUpdate>)

  /** `handleSubmit`: refused with a message while the strip is empty;
      otherwise the uploads, the remaining saved paths, the hobbies and the
      other fields are sent, and the message reports the outcome. */
  function Submit(st: ProfileState, succeeded: bool): (r: SubmitStep)
    ensures |st.previews| == 0 ==> r == SubmitStep(st.(message := NeedAPhoto), None)
    ensures |st.previews| > 0 ==>
      && r.request == Some(ProfileUpdate(st.images, st.existing, st.hobbies, st.details))
      && r.state == st.(message := if succeeded then ProfileUpdated else UpdateFailed)
  {
    if |st.previews| < 1 then SubmitStep(st.(message := NeedAPhoto), None)
    else
      var req := ProfileUpdate(st.images, st.existing, st.hobbies, st.details);
      SubmitStep(st.(message := if succeeded then ProfileUpdated else UpdateFailed), Some(req))
  }

  /** A profile is never submitted without at least one photo, so a
      submitted aligned strip always carries a saved photo or an upload. */
  lemma SubmittedHasAPhoto(st: ProfileState, succeeded: bool)
    requires Aligned(st)
    ensures Submit(st, succeeded).request.Some? ==> |st.existing| + |st.images| >= 1
  {
    assert |Sources(st.previews)| == |st.previews|;
  }
}

=== FILE: routes.dfy ===
/** The client-side routes the handlers navigate to, with the router state
    or query parameters each one carries. */
module Routes {
  import opened Wrappers

  /** The router state a page passes when it opens the chat screen on a
      given peer (`navigate('/chats', { state: ... })`). */
  datatype ChatTarget = ChatTarget(userId: string, userName: string, initiatingCall: bool)

  datatype Route =
    | Login
    | Dashboard
    | Chats(target: Option<ChatTarget>)
    | Friends
    | Subscription
    | VideoCall(userId: string, userName: string)
}

=== FILE: seqs.dfy ===
/** Sequence helpers shared by the page models: order-preserving filtering
    (JavaScript's `Array.prototype.filter`) and single-element removal
    (`splice(i, 1)`). */
module Seqs {

  /** `a` is `b` with some elements dropped and the rest kept in order. */
  ghost predicate IsSubsequence<T>(a: seq<T>, b: seq<T>)
    decreases |b|
  {
    || |a| == 0
    || (&& |b| > 0
        && (|| (a[0] == b[0] && IsSubsequence(a[1..], b[1..]))
            || IsSubsequence(a, b[1..])))
  }

  /** `Array.prototype.filter`: keeps exactly the elements satisfying `keep`,
      each as often as it occurs in `s`, in their original order. */
  function Filter<T(!new)>(s: seq<T>, keep: T -> bool): (r: seq<T>)
    ensures IsSubsequence(r, s)
    ensures forall x :: multiset(r)[x] == if keep(x) then multiset(s)[x] else 0
    ensures forall x :: x in r <==> x in s && keep(x)
    ensures |r| <= |s|
  {
    if |s| == 0 then []
    else
      assert s == [s[0]] + s[1..];
      var rest := Filter(s[1..], keep);
      if keep(s[0]) then [s[0]] + rest else rest
  }

  /** Filtering with a predicate that holds everywhere keeps the whole sequence. */
  lemma {:induction false} FilterAll<T(!new)>(s: seq<T>, keep: T -> bool)
    requires forall x :: x in s ==> keep(x)
    ensures Filter(s, keep) == s
  {
    if |s| > 0 {
      FilterAll(s[1..], keep);
      assert s == [s[0]] + s[1..];
    }
  }

  /** Every sequence is a subsequence of itself. */
  lemma {:induction false} SubsequenceReflexive<T>(s: seq<T>)
    ensures IsSubsequence(s, s)
    decreases |s|
  {
    if |s| > 0 {
      SubsequenceReflexive(s[1..]);
    }
  }

  /** Dropping elements twice is dropping elements once. */
  lemma {:induction false} SubsequenceTransitive<T>(a: seq<T>, b: seq<T>, c: seq<T>)
    requires IsSubsequence(a, b) && IsSubsequence(b, c)
    ensures IsSubsequence(a, c)
    decreases |c|
  {
    if |a| > 0 {
      if IsSubsequence(b, c[1..]) {
        SubsequenceTransitive(a, b, c[1..]);
      } else if a[0] == b[0] && IsSubsequence(a[1..], b[1..]) {
        SubsequenceTransitive(a[1..], b[1..], c[1..]);
      } else {
        SubsequenceTransitive(a, b[1..], c[1..]);
      }
    }
  }

  /** A filter stage that only runs when its criterion is switched on, as in
      `if (criterion) list = list.filter(keep)`. */
  function FilterWhen<T(!new)>(s: seq<T>, active: bool, keep: T -> bool): (r: seq<T>)
    ensures IsSubsequence(r, s)
    ensures forall x :: multiset(r)[x] == if !active || keep(x) then multiset(s)[x] else 0
    ensures forall x :: x in r <==> x in s && (!active || keep(x))
  {
    SubsequenceReflexive(s);
    if active then Filter(s, keep) else s
  }

  /** No element occurs twice. */
  predicate NoDuplicates<T(==)>(s: seq<T>) {
    forall i, j :: 0 <= i < j < |s| ==> s[i] != s[j]
  }

  /** Filtering a duplicate-free sequence leaves it duplicate-free. */
  lemma {:induction false} FilterKeepsNoDuplicates<T(!new)>(s: seq<T>, keep: T -> bool)
    requires NoDuplicates(s)
    ensures NoDuplicates(Filter(s, keep))
  {
    if |s| > 0 {
      FilterKeepsNoDuplicates(s[1..], keep);
      var rest := Filter(s[1..], keep);
      assert s[0] !in s[1..] by {
        forall k | 0 <= k < |s[1..]| ensures s[1..][k] != s[0] {
          assert s[1..][k] == s[k + 1];
        }
      }
      assert s[0] !in rest;
    }
  }

  /** `s.includes(x) ? s.filter(y => y !== x) : [...s, x]`: flips whether
      `x` is selected and leaves every other element's membership alone. A
      removal never lengthens the list, an addition goes at the end, and a
      duplicate-free list stays duplicate-free. */
  function Toggle<T(==, !new)>(s: seq<T>, x: T): (r: seq<T>)
    ensures x in r <==> x !in s
    ensures forall y :: y != x ==> (y in r <==> y in s)
    ensures x in s ==> |r| <= |s|
    ensures x !in s ==> r == s + [x]
    ensures NoDuplicates(s) ==> NoDuplicates(r)
  {
    if x in s then
      var keep := (y: T) => y != x;
      if NoDuplicates(s) then FilterKeepsNoDuplicates(s, keep); Filter(s, keep)
      else Filter(s, keep)
    else
      AppendNewKeepsNoDuplicates(s, x);
      s + [x]
  }

  /** Appending an element not yet present keeps a sequence duplicate-free. */
  lemma AppendNewKeepsNoDuplicates<T>(s: seq<T>, x: T)
    requires x !in s
    ensures NoDuplicates(s) ==> NoDuplicates(s + [x])
  {
    var t := s + [x];
    if NoDuplicates(s) {
      forall i, j | 0 <= i < j < |t| ensures t[i] != t[j] {
        if j == |s| {
          assert t[i] == s[i];
        }
      }
    }
  }

  /** `copy.splice(i, 1)` on a copy: removes position `i`, or nothing when
      `i` is past the end. */
  function RemoveAt<T>(s: seq<T>, i: nat): (r: seq<T>)
    ensures i < |s| ==> |r| == |s| - 1
    ensures i < |s| ==> forall k :: 0 <= k < |r| ==> r[k] == if k < i then s[k] else s[k + 1]
    ensures i >= |s| ==> r == s
  {
    if i < |s| then s[..i] + s[i + 1..] else s
  }

  /** Removing a position inside the left part of a concatenation. */
  lemma RemoveAtConcatLeft<T>(a: seq<T>, b: seq<T>, i: nat)
    requires i < |a|
    ensures RemoveAt(a + b, i) == RemoveAt(a, i) + b
  {
    calc {
      RemoveAt(a + b, i);
      (a + b)[..i] + (a + b)[i + 1..];
      { assert (a + b)[..i] == a[..i]; assert (a + b)[i + 1..] == a[i + 1..] + b; }
      a[..i] + (a[i + 1..] + b);
      (a[..i] + a[i + 1..]) + b;
    }
  }

  /** Removing a position at or past the end of the left part of a concatenation. */
  lemma RemoveAtConcatRight<T>(a: seq<T>, b: seq<T>, i: nat)
    requires i >= |a|
    ensures RemoveAt(a + b, i) == a + RemoveAt(b, i - |a|)
  {
    if i < |a| + |b| {
      calc {
        RemoveAt(a + b, i);
        (a + b)[..i] + (a + b)[i + 1..];
        { assert (a + b)[..i] == a + b[..i - |a|]; assert (a + b)[i + 1..] == b[i - |a| + 1..]; }
        (a + b[..i - |a|]) + b[i - |a| + 1..];
        a + (b[..i - |a|] + b[i - |a| + 1..]);
      }
    }
  }
}

=== FILE: signup.dfy ===
/** The sign-up form: field edits, the age gate, the terms gate and the
    outcome of the sign-up request. The date of birth arrives already read
    off the date input (`None` when it is blank). */
module Signup {
  import opened Wrappers
  import Dates
  import opened Routes

  /** The form fields by input name (`name`, `email`, `gender`, `dob`,
      `lookingFor`, `password`). */
  type Form = map<string, string>

  datatype SignupState = SignupState(form: Form, acceptTerms: bool, message: string)

  const AgeMessage := "You must be at least 18 years old to sign up."
  const TermsMessage := "You must accept the Terms and Conditions to continue."
  const SuccessMessage := "Signup successful! Redirecting to login..."

  const InitialForm: Form := map["name" := "", "email" := "", "gender" := "", "dob" := "", "lookingFor" := "", "password" := ""]

  /** `handleChange`: the input's own field takes the new value; every other
      field keeps its value. */
  function HandleChange(form: Form, name: string, value: string): (r: Form)
    ensures r.Keys == form.Keys + {name}
    ensures r[name] == value
    ensures forall k :: k in form && k != name ==> r[k] == form[k]
  {
    form[name := value]
  }

  /** Editing the fields one by one never loses a field of the form. */
  lemma ChangeKeepsFields(form: Form, name: string, value: string)
    requires InitialForm.Keys <= form.Keys
    ensures InitialForm.Keys <= HandleChange(form, name, value).Keys
  {
  }

  // ----- the age gate -----

  /** `isAbove18` as the page writes it: the year difference is over 18, or
      exactly 18 with this month not before the birth month. The day of the
      month is never looked at. A blank date of birth gives `false` (every
      comparison with an invalid date is false). */
  predicate IsAbove18AsWritten(dob: Option<Dates.Date>, today: Dates.Date) {
    match dob
    case None => false
    case Some(b) =>
      var years := today.year - b.year;
      var m := today.month - b.month;
      years > 18 || (years == 18 && m >= 0)
  }

  /** The intended gate: eighteen full years have passed since the date of
      birth. */
  predicate IsAtLeast18(dob: Option<Dates.Date>, today: Dates.Date) {
    dob.Some? && Dates.CalculateAge(dob.value, today) >= 18
  }

  /** The written gate accepts everybody the intended one accepts, and in
      addition exactly those who turn 18 later in the current month. */
  lemma AsWrittenAdmitsBirthdayMonth(dob: Option<Dates.Date>, today: Dates.Date)
    ensures IsAbove18AsWritten(dob, today) <==>
      || IsAtLeast18(dob, today)
      || (dob.Some? && today.year - dob.value.year == 18 && today.month == dob.value.month && today.day < dob.value.day)
  {
  }

  /** Someone born on 20 October 2008 is still 17 on 9 October 2026, yet the
      written gate lets them through. */
  lemma AsWrittenAdmitsSeventeen()
    ensures var dob, today := Some(Dates.Date(2008, 10, 20)), Dates.Date(2026, 10, 9);
      && IsAbove18AsWritten(dob, today)
      && Dates.CalculateAge(dob.value, today) == 17
      && !IsAtLeast18(dob, today)
  {
  }

  /** The intended gate matches the age the rest of the application shows. */
  lemma AtLeast18MeansAnniversaryReached(b: Dates.Date, today: Dates.Date)
    ensures IsAtLeast18(Some(b), today) <==> Dates.OnOrBefore(Dates.AddYears(b, 18), today)
  {
    var age := Dates.CalculateAge(b, today);
    if age >= 18 {
      assert Dates.OnOrBefore(Dates.AddYears(b, age), today);
    } else {
      assert !Dates.OnOrBefore(Dates.AddYears(b, age + 1), today);
    }
  }

  // ----- submit -----

  datatype SignupOutcome = SignedUp | SignupFailed(error: Option<string>)

  /** A handler's effect: the next state, the form it posted and the page
      it goes to (after a short delay). */
  datatype Step = Step(state: SignupState, request: Option<Form>, nav: Option<Route>)

  /** `handleSubmit`, with the age gate as intended: an under-age date of
      birth is refused whatever the terms box says; then unchecked terms are
      refused; only then is the form posted. */
  function HandleSubmit(st: SignupState, dob: Option<Dates.Date>, today: Dates.Date, outcome: SignupOutcome): (r: Step)
    ensures !IsAtLeast18(dob, today) ==> r == Step(st.(message := AgeMessage), None, None)
    ensures IsAtLeast18(dob, today) && !st.acceptTerms ==> r == Step(st.(message := TermsMessage), None, None)
    ensures r.request.Some? <==> IsAtLeast18(dob, today) && st.acceptTerms
    ensures r.request.Some? ==> r.request.value == st.form
    ensures r.request.Some? && outcome.SignedUp? ==> r.state.message == SuccessMessage && r.nav == Some(Login)
    ensures r.request.Some? && outcome.SignupFailed? ==>
      r.state.message == OrDefault(outcome.error, "Signup failed") && r.nav.None?
    ensures r.state.message != ""
    ensures r.state.(message := st.message) == st
  {
    if !IsAtLeast18(dob, today) then Step(st.(message := AgeMessage), None, None)
    else if !st.acceptTerms then Step(st.(message := TermsMessage), None, None)
    else match outcome
      case SignedUp => Step(st.(message := SuccessMessage), Some(st.form), Some(Login))
      case SignupFailed(error) => Step(st.(message := OrDefault(error, "Signup failed")), Some(st.form), None)
  }
}

=== FILE: subscription.dfy ===
/** The subscription page: the currency symbol for the visitor's currency,
    the two plans, the checkout request, the plan type recorded after a
    successful payment, and the heading of the current plan.

    The symbol strings are the ones the page stores, character for
    character: the file holds the UTF-8 bytes of the rupee, euro, pound and
    yen signs re-read as Windows-1252 text, so each symbol is two or three
    characters of mojibake. */
module Subscription {
  import opened Wrappers
  import Text

  const RupeeSymbol := "\U{00E2}\U{201A}\U{00B9}"

  /** `getCurrencySymbol`'s table. */
  const Symbols: map<string, string> := map[
    "INR" := RupeeSymbol,
    "USD" := "$",
    "EUR" := "\U{00E2}\U{201A}\U{00AC}",
    "GBP" := "\U{00C2}\U{00A3}",
    "AUD" := "A$",
    "CAD" := "C$",
    "JPY" := "\U{00C2}\U{00A5}"]

  /** `getCurrencySymbol(code)`: the table's symbol for a listed code, and
      the code itself for any other. */
  function GetCurrencySymbol(code: string): (r: string)
    ensures code in Symbols ==> r == Symbols[code] && |r| > 0
    ensures code !in Symbols ==> r == code
  {
    if code in Symbols then Symbols[code] else code
  }

  /** No two listed currencies share a symbol, so the symbol identifies the
      currency among the listed ones. */
  lemma SymbolsDistinct(a: string, b: string)
    requires a in Symbols && b in Symbols && a != b
    ensures GetCurrencySymbol(a) != GetCurrencySymbol(b)
  {
  }

  /** The currency and symbol after the two look-ups on page load: the
      visitor's currency defaults to INR when the lookup gives none or an
      empty one; the symbol follows it only when the exchange rates arrive,
      and falls back to the rupee sign when they do not. Either way the
      page never shows an empty currency or symbol. */
  datatype CurrencyView = CurrencyView(currency: string, symbol: string)

  function CurrencyLookedUp(ipCurrency: Option<string>, ratesArrived: bool): (r: CurrencyView)
    ensures r.currency == OrDefault(ipCurrency, "INR")
    ensures ratesArrived ==> r.symbol == GetCurrencySymbol(r.currency)
    ensures !ratesArrived ==> r.symbol == RupeeSymbol
    ensures r.currency != "" && r.symbol != ""
  {
    var code := OrDefault(ipCurrency, "INR");
    CurrencyView(code, if ratesArrived then GetCurrencySymbol(code) else RupeeSymbol)
  }

  // ----- plans and checkout -----

  datatype Plan = Plan(name: string, price: nat)

  const Plans := [Plan("Monthly", 199), Plan("Yearly", 699)]

  datatype PlanType = Monthly | Yearly

  /** The plan value sent to `/api/user/subscribe`. */
  function PlanValue(t: PlanType): string {
    match t
    case Monthly => "monthly"
    case Yearly => "yearly"
  }

  /** The plan type read off the payment note: `monthly` if the lower-cased
      note mentions it (checked first), else `yearly` if it mentions that,
      else none. */
  function PlanTypeOf(note: string): (r: Option<PlanType>)
    ensures r == Some(Monthly) <==> Text.Contains(Text.ToLower(note), "monthly")
    ensures r == Some(Yearly) <==>
      !Text.Contains(Text.ToLower(note), "monthly") && Text.Contains(Text.ToLower(note), "yearly")
    ensures r.None? <==>
      !Text.Contains(Text.ToLower(note), "monthly") && !Text.Contains(Text.ToLower(note), "yearly")
  {
    var lower := Text.ToLower(note);
    if Text.Contains(lower, "monthly") then Some(Monthly)
    else if Text.Contains(lower, "yearly") then Some(Yearly)
    else None
  }

  /** The note a plan card's button passes, `"<name> Plan"`. */
  function NoteFor(p: Plan): string {
    p.name + " Plan"
  }

  /** Each plan card's note is read back as that card's plan, and the plan
      value the server stores capitalises back to the card's name. */
  lemma PlanNotesRoundTrip()
    ensures PlanTypeOf(NoteFor(Plans[0])) == Some(Monthly)
    ensures PlanTypeOf(NoteFor(Plans[1])) == Some(Yearly)
    ensures Text.Capitalize(PlanValue(Monthly)) == Plans[0].name
    ensures Text.Capitalize(PlanValue(Yearly)) == Plans[1].name
  {
    MonthlyNote();
    YearlyNote();
    PlanValuesCapitalize();
  }

  lemma PlanValuesCapitalize()
    ensures Text.Capitalize(PlanValue(Monthly)) == "Monthly"
    ensures Text.Capitalize(PlanValue(Yearly)) == "Yearly"
  {
    assert Text.Capitalize("monthly") == [Text.UpperChar('m')] + "onthly";
    assert Text.Capitalize("yearly") == [Text.UpperChar('y')] + "early";
  }

  lemma MonthlyNote()
    ensures Text.Contains(Text.ToLower(NoteFor(Plans[0])), "monthly")
  {
    var m := Text.ToLower(NoteFor(Plans[0]));
    assert m[..7] == "monthly";
    assert Text.OccursAt(m, "monthly", 0);
  }

  lemma YearlyNote()
    ensures !Text.Contains(Text.ToLower(NoteFor(Plans[1])), "monthly")
    ensures Text.Contains(Text.ToLower(NoteFor(Plans[1])), "yearly")
  {
    var y := Text.ToLower(NoteFor(Plans[1]));
    assert |y| == 11;
    assert y[..6] == "yearly";
    assert Text.OccursAt(y, "yearly", 0);
    assert forall i | 0 <= i < |y| :: y[i] != 'm';
    forall i ensures !Text.OccursAt(y, "monthly", i) {
      if 0 <= i && i + 7 <= |y| {
        assert y[i..i + 7][0] == y[i];
      }
    }
  }

  /** What the checkout is opened with. */
  datatype Checkout = Checkout(amount: int, currency: string, description: string, planType: Option<PlanType>)

  datatype PaymentStep = PaymentStep(checkout: Option<Checkout>, alert: Option<string>)

  const NotReady := "Razorpay is not ready yet. Please wait a moment and try again."

  /** `handlePayment(amountINR, note)`: refused with an alert unless the
      checkout script has loaded and exposes its constructor; otherwise the
      checkout opens for the amount in paise, in rupees, with the plan type
      read off the note. */
  function HandlePayment(scriptLoaded: bool, constructorPresent: bool, amountINR: int, note: string): (r: PaymentStep)
    ensures r.checkout.None? <==> !scriptLoaded || !constructorPresent
    ensures r.checkout.None? ==> r.alert == Some(NotReady)
    ensures r.checkout.Some? ==>
      && r.alert.None?
      && r.checkout.value.amount == amountINR * 100
      && r.checkout.value.currency == "INR"
      && r.checkout.value.description == note
      && r.checkout.value.planType == PlanTypeOf(note)
  {
    if !scriptLoaded || !constructorPresent then PaymentStep(None, Some(NotReady))
    else PaymentStep(Some(Checkout(amountINR * 100, "INR", note, PlanTypeOf(note))), None)
  }

  /** An active subscription as the server returns it. */
  datatype Active = Active(plan: string)

  /** What saving the subscription returned. */
  datatype SaveOutcome = Saved(subscription: Option<Active>) | SaveFailed

  datatype Payment = Payment(subscription: Option<Active>, subscribeRequest: Option<string>, alerts: seq<string>)

  const SaveFailedAlert := "Payment succeeded but subscription save failed."

  /** The checkout's success handler: it always reports the payment, then
      records the subscription only when a plan type was recognised. */
  function PaymentSucceeded(current: Option<Active>, planType: Option<PlanType>, paymentId: string, outcome: SaveOutcome): (r: Payment)
    ensures |r.alerts| >= 1 && r.alerts[0] == "\U{00E2}\U{0153}\U{2026} Payment successful!\nPayment ID: " + paymentId
    ensures r.subscribeRequest.Some? <==> planType.Some?
    ensures planType.Some? ==> r.subscribeRequest.value == PlanValue(planType.value)
    ensures planType.None? ==> r.subscription == current && |r.alerts| == 1
    ensures planType.Some? && outcome.Saved? && outcome.subscription.Some? ==> r.subscription == outcome.subscription
    ensures planType.Some? && outcome == Saved(None) ==> r.subscription == current && |r.alerts| == 1
    ensures planType.Some? && outcome.SaveFailed? ==> r.subscription == current && r.alerts[1..] == [SaveFailedAlert]
  {
    var paid := "\U{00E2}\U{0153}\U{2026} Payment successful!\nPayment ID: " + paymentId;
    match planType
    case None => Payment(current, None, [paid])
    case Some(t) =>
      match outcome
      case Saved(sub) => Payment(if sub.Some? then sub else current, Some(PlanValue(t)), [paid])
      case SaveFailed => Payment(current, Some(PlanValue(t)), [paid, SaveFailedAlert])
  }

  /** The heading of the current plan: the stored plan name with only its
      first character upper-cased. */
  function CurrentPlanHeading(a: Active): (r: string)
    ensures |r| == |"Current Plan: "| + |a.plan|
    ensures r[..|"Current Plan: "|] == "Current Plan: "
    ensures |a.plan| > 0 ==> r[|"Current Plan: "|] == Text.UpperChar(a.plan[0])
    ensures |a.plan| > 0 ==> r[|"Current Plan: "| + 1..] == a.plan[1..]
  {
    var r := "Current Plan: " + Text.Capitalize(a.plan);
    assert |a.plan| > 0 ==> r[|"Current Plan: "| + 1..] == Text.Capitalize(a.plan)[1..];
    r
  }

  /** A plan card from click to heading: with the checkout ready, the card's
      button opens the checkout for its price in paise with the card's own
      plan type, and once the payment succeeds and the server stores that
      plan, the current-plan heading names the card. */
  lemma PlanCardEndToEnd(i: nat, paymentId: string)
    requires i < |Plans|
    ensures var c := HandlePayment(true, true, Plans[i].price, NoteFor(Plans[i])).checkout;
      && c.Some?
      && c.value.amount == Plans[i].price * 100
      && c.value.planType == Some(if i == 0 then Monthly else Yearly)
      && var paid := PaymentSucceeded(None, c.value.planType, paymentId,
                                      Saved(Some(Active(PlanValue(c.value.planType.value)))));
         && paid.subscribeRequest == Some(PlanValue(c.value.planType.value))
         && CurrentPlanHeading(paid.subscription.value) == "Current Plan: " + Plans[i].name
  {
    PlanNotesRoundTrip();
    var t := if i == 0 then Monthly else Yearly;
    var h := CurrentPlanHeading(Active(PlanValue(t)));
    assert h == "Current Plan: " + Text.Capitalize(PlanValue(t));
  }
}

=== FILE: text.dfy ===
/** The string operations the pages call: ASCII case mapping
    (`toLowerCase`/`toUpperCase`), `startsWith`, `includes`, `trim`,
    single-character `replace`, and decimal rendering of naturals
    (`Number.prototype.toString`). Strings are `seq<char>`. */
module Text {

  predicate IsAsciiUpper(c: char) {
    'A' <= c <= 'Z'
  }

  predicate IsAsciiLower(c: char) {
    'a' <= c <= 'z'
  }

  function LowerChar(c: char): (r: char)
    ensures !IsAsciiUpper(r)
    ensures !IsAsciiUpper(c) ==> r == c
  {
    if IsAsciiUpper(c) then (c as int - 'A' as int + 'a' as int) as char else c
  }

  function UpperChar(c: char): (r: char)
    ensures !IsAsciiLower(r)
    ensures !IsAsciiLower(c) ==> r == c
  {
    if IsAsciiLower(c) then (c as int - 'a' as int + 'A' as int) as char else c
  }

  /** `s.toLowerCase()` on the ASCII letters. */
  function ToLower(s: string): (r: string)
    ensures |r| == |s|
    ensures forall i :: 0 <= i < |s| ==> r[i] == LowerChar(s[i])
  {
    seq(|s|, i requires 0 <= i < |s| => LowerChar(s[i]))
  }

  /** `s.startsWith(prefix)`. */
  predicate StartsWith(s: string, prefix: string) {
    |prefix| <= |s| && s[..|prefix|] == prefix
  }

  /** `needle` occurs in `hay` starting at position `i`. */
  predicate OccursAt(hay: string, needle: string, i: int) {
    0 <= i && i + |needle| <= |hay| && hay[i..i + |needle|] == needle
  }

  lemma OccursShift(hay: string, needle: string, i: int)
    requires |hay| > 0 && i >= 0
    ensures OccursAt(hay[1..], needle, i) <==> OccursAt(hay, needle, i + 1)
  {
    if 0 <= i && i + |needle| <= |hay| - 1 {
      assert hay[1..][i..i + |needle|] == hay[i + 1..i + 1 + |needle|];
    }
  }

  /** `hay.includes(needle)`: true exactly when `needle` occurs somewhere in
      `hay` (the empty needle occurs everywhere). */
  function Contains(hay: string, needle: string): (r: bool)
    ensures r <==> exists i :: OccursAt(hay, needle, i)
    decreases |hay|
  {
    if StartsWith(hay, needle) then
      assert OccursAt(hay, needle, 0);
      true
    else if |hay| == 0 then
      false
    else
      var r := Contains(hay[1..], needle);
      assert forall i :: OccursAt(hay[1..], needle, i) ==> OccursAt(hay, needle, i + 1) by {
        forall i | OccursAt(hay[1..], needle, i) {
          OccursShift(hay, needle, i);
        }
      }
      assert forall i :: OccursAt(hay, needle, i) ==> i > 0;
      assert forall i :: OccursAt(hay, needle, i) ==> OccursAt(hay[1..], needle, i - 1) by {
        forall i | OccursAt(hay, needle, i) {
          OccursShift(hay, needle, i - 1);
        }
      }
      r
  }

  /** The characters `String.prototype.trim` removes: the ECMAScript
      WhiteSpace and LineTerminator code points. */
  predicate IsWhitespace(c: char) {
    || c == ' ' || c == '\t' || c == '\n' || c == '\r'
    || c == '\U{000B}' || c == '\U{000C}' || c == '\U{00A0}' || c == '\U{FEFF}'
    || c == '\U{1680}' || ('\U{2000}' <= c <= '\U{200A}')
    || c == '\U{2028}' || c == '\U{2029}' || c == '\U{202F}' || c == '\U{205F}'
    || c == '\U{3000}'
  }

  function TrimStart(s: string): (r: string)
    ensures |r| <= |s| && r == s[|s| - |r|..]
    ensures forall i :: 0 <= i < |s| - |r| ==> IsWhitespace(s[i])
    ensures |r| > 0 ==> !IsWhitespace(r[0])
  {
    if |s| > 0 && IsWhitespace(s[0]) then TrimStart(s[1..]) else s
  }

  function TrimEnd(s: string): (r: string)
    ensures |r| <= |s| && r == s[..|r|]
    ensures forall i :: |r| <= i < |s| ==> IsWhitespace(s[i])
    ensures |r| > 0 ==> !IsWhitespace(r[|r| - 1])
  {
    if |s| > 0 && IsWhitespace(s[|s| - 1]) then TrimEnd(s[..|s| - 1]) else s
  }

  predicate AllWhitespace(s: string) {
    forall i :: 0 <= i < |s| ==> IsWhitespace(s[i])
  }

  /** `r` is `s` with only whitespace cut off at the front (the first `k`
      characters) and at the back. */
  predicate TrimmedAt(s: string, r: string, k: int) {
    && 0 <= k && k + |r| <= |s|
    && r == s[k..k + |r|]
    && AllWhitespace(s[..k])
    && AllWhitespace(s[k + |r|..])
  }

  /** `s.trim()`: a contiguous piece of `s` that neither starts nor ends with
      whitespace, with only whitespace cut off either side. */
  function Trim(s: string): (r: string)
    ensures |r| > 0 ==> !IsWhitespace(r[0]) && !IsWhitespace(r[|r| - 1])
    ensures exists k :: TrimmedAt(s, r, k)
  {
    var t := TrimStart(s);
    var r := TrimEnd(t);
    var k := |s| - |t|;
    assert r == s[k..k + |r|];
    assert s[k + |r|..] == t[|r|..];
    assert TrimmedAt(s, r, k);
    r
  }

  /** `!s.trim()` holds exactly for strings made only of whitespace. */
  lemma TrimEmptyIff(s: string)
    ensures Trim(s) == [] <==> AllWhitespace(s)
  {
    var r := Trim(s);
    var k :| TrimmedAt(s, r, k);
    if r == [] {
      forall i | 0 <= i < |s|
        ensures IsWhitespace(s[i])
      {
        if i < k {
          assert s[i] == s[..k][i];
        } else {
          assert s[i] == s[k..][i - k];
        }
      }
    }
  }

  /** `s.replace(/x/g, y)` for single characters. */
  function ReplaceChar(s: string, from: char, to: char): (r: string)
    ensures |r| == |s|
    ensures forall i :: 0 <= i < |s| ==> r[i] == if s[i] == from then to else s[i]
  {
    seq(|s|, i requires 0 <= i < |s| => if s[i] == from then to else s[i])
  }

  predicate IsDigit(c: char) {
    '0' <= c <= '9'
  }

  predicate AllDigits(s: string) {
    forall i :: 0 <= i < |s| ==> IsDigit(s[i])
  }

  function DigitChar(d: nat): (c: char)
    requires d < 10
    ensures IsDigit(c)
  {
    ('0' as int + d) as char
  }

  function DigitValue(c: char): (d: nat)
    requires IsDigit(c)
    ensures d < 10
  {
    c as int - '0' as int
  }

  /** `String(n)` for a natural number: its decimal digits, most significant
      first, with no leading zero. */
  function Decimal(n: nat): (r: string)
    ensures |r| >= 1 && AllDigits(r)
    ensures |r| > 1 ==> r[0] != '0'
    ensures n < 10 <==> |r| == 1
  {
    if n < 10 then [DigitChar(n)] else Decimal(n / 10) + [DigitChar(n % 10)]
  }

  /** Reads a digit string as a decimal number. */
  function DecimalValue(s: string): nat
    requires AllDigits(s)
  {
    if |s| == 0 then 0 else DecimalValue(s[..|s| - 1]) * 10 + DigitValue(s[|s| - 1])
  }

  /** Rendering a natural in decimal and reading it back gives the number. */
  lemma {:induction false} DecimalRoundTrip(n: nat)
    ensures DecimalValue(Decimal(n)) == n
  {
    if n >= 10 {
      DecimalRoundTrip(n / 10);
      var r := Decimal(n);
      assert r[..|r| - 1] == Decimal(n / 10);
    }
  }

  /** Numbers below 100 take at most two digits. */
  lemma {:induction false} DecimalBelow100(n: nat)
    requires n < 100
    ensures |Decimal(n)| <= 2
  {
    if n >= 10 {
      assert Decimal(n / 10) == [DigitChar(n / 10)];
    }
  }

  /** `s.padStart(width, fill)` with a one-character fill: `fill` is put in
      front until the string is `width` long; longer strings are untouched. */
  function PadStart(s: string, width: nat, fill: char): (r: string)
    ensures |s| >= width ==> r == s
    ensures |s| < width ==> |r| == width
    ensures |r| >= |s| && r[|r| - |s|..] == s
    ensures forall i :: 0 <= i < |r| - |s| ==> r[i] == fill
  {
    if |s| >= width then s else seq(width - |s|, _ => fill) + s
  }

  /** `s.charAt(0).toUpperCase() + s.slice(1)`; the empty string stays empty. */
  function Capitalize(s: string): (r: string)
    ensures |r| == |s|
    ensures |s| > 0 ==> r[0] == UpperChar(s[0]) && r[1..] == s[1..]
  {
    if |s| == 0 then "" else [UpperChar(s[0])] + s[1..]
  }
}

=== FILE: travel_dating.dfy ===
/** The travel-dating page: the six-criterion filter over posted travel
    plans, the two interest toggles (the capped one of the post form and the
    uncapped one of the filter bar), the post form's validation, and the
    authentication / premium gates of posting and connecting. Dates are
    integer timestamps; an empty date input is `None`. */
module TravelDating {
  import opened Wrappers
  import Seqs
  import Text
  import opened Routes

  /** A posted plan. `posterId` and `posterGender` are the id and gender of
      the populated poster; the id is absent when the poster could not be
      populated (the page then shows "Anonymous"). */
  datatype Plan = Plan(
    posterId: Option<string>,
    posterGender: Option<string>,
    destination: string,
    budget: string,
    interests: seq<string>,
    startDate: int,
    endDate: int)

  /** The filter bar. An empty text field or an empty date input switches
      its criterion off. */
  datatype Filters = Filters(
    destination: string,
    gender: string,
    budget: string,
    interests: seq<string>,
    startDate: Option<int>,
    endDate: Option<int>)

  /** The post form. */
  datatype TravelForm = TravelForm(
    destination: string,
    startDate: Option<int>,
    endDate: Option<int>,
    budget: string,
    interests: seq<string>,
    description: string)

  /** The validation errors, one optional message per field. */
  datatype FormErrors = FormErrors(destination: Option<string>, startDate: Option<string>, endDate: Option<string>)

  datatype TravelState = TravelState(
    plans: seq<Plan>,
    isAuthenticated: bool,
    isPremium: bool,
    filters: Filters,
    form: TravelForm,
    formErrors: FormErrors,
    showPostModal: bool,
    showUpgradeModal: bool,
    showSuccessModal: bool,
    successMessage: string)

  const MaxInterests := 5
  const PostedMessage := "Your travel plan has been posted! Others can now find you."

  const NoFilters := Filters("", "", "", [], None, None)
  const EmptyForm := TravelForm("", None, None, "Flexible", [], "")
  const NoErrors := FormErrors(None, None, None)

  // ----- filter pipeline -----

  predicate DestinationMatches(p: Plan, term: string) {
    Text.Contains(Text.ToLower(p.destination), Text.ToLower(term))
  }

  /** `plan.userId?.gender === filterGender`. */
  predicate GenderMatches(p: Plan, gender: string) {
    p.posterGender == Some(gender)
  }

  /** The plan shares at least one interest with the selected ones. */
  predicate SharesInterest(p: Plan, selected: seq<string>) {
    exists i :: 0 <= i < |p.interests| && p.interests[i] in selected
  }

  /** The three criteria on the plan's own text fields. */
  predicate TextShown(p: Plan, f: Filters) {
    && (f.destination == [] || DestinationMatches(p, f.destination))
    && (f.gender == [] || GenderMatches(p, f.gender))
    && (f.budget == [] || p.budget == f.budget)
  }

  /** The interest and date-range criteria. */
  predicate RangeShown(p: Plan, f: Filters) {
    && (|f.interests| == 0 || SharesInterest(p, f.interests))
    && (f.startDate.None? || p.startDate >= f.startDate.value)
    && (f.endDate.None? || p.endDate <= f.endDate.value)
  }

  /** What the six criteria accept together; a criterion whose input is
      empty accepts every plan. */
  predicate PlanShown(p: Plan, f: Filters) {
    TextShown(p, f) && RangeShown(p, f)
  }

  /** The destination, gender and budget stages. */
  function TextStages(plans: seq<Plan>, f: Filters): (r: seq<Plan>)
    ensures Seqs.IsSubsequence(r, plans)
    ensures forall p :: multiset(r)[p] == if TextShown(p, f) then multiset(plans)[p] else 0
  {
    var s1 := Seqs.FilterWhen(plans, f.destination != [], (p: Plan) => DestinationMatches(p, f.destination));
    var s2 := Seqs.FilterWhen(s1, f.gender != [], (p: Plan) => GenderMatches(p, f.gender));
    var s3 := Seqs.FilterWhen(s2, f.budget != [], (p: Plan) => p.budget == f.budget);
    Seqs.SubsequenceTransitive(s2, s1, plans);
    Seqs.SubsequenceTransitive(s3, s2, plans);
    s3
  }

  /** The interest, start-date and end-date stages. */
  function RangeStages(plans: seq<Plan>, f: Filters): (r: seq<Plan>)
    ensures Seqs.IsSubsequence(r, plans)
    ensures forall p :: multiset(r)[p] == if RangeShown(p, f) then multiset(plans)[p] else 0
  {
    var s4 := Seqs.FilterWhen(plans, |f.interests| > 0, (p: Plan) => SharesInterest(p, f.interests));
    var s5 := Seqs.FilterWhen(s4, f.startDate.Some?, (p: Plan) => p.startDate >= f.startDate.GetOr(0));
    var s6 := Seqs.FilterWhen(s5, f.endDate.Some?, (p: Plan) => p.endDate <= f.endDate.GetOr(0));
    Seqs.SubsequenceTransitive(s5, s4, plans);
    Seqs.SubsequenceTransitive(s6, s5, plans);
    s6
  }

  /** The filter effect: the six stages applied in the page's order. The
      result keeps exactly the plans `PlanShown` accepts, each as often as
      before, in their original order. */
  function FilterPlans(plans: seq<Plan>, f: Filters): (r: seq<Plan>)
    ensures Seqs.IsSubsequence(r, plans)
    ensures forall p :: multiset(r)[p] == if PlanShown(p, f) then multiset(plans)[p] else 0
    ensures forall p :: p in r <==> p in plans && PlanShown(p, f)
  {
    var s := TextStages(plans, f);
    var r := RangeStages(s, f);
    Seqs.SubsequenceTransitive(r, s, plans);
    r
  }

  function Visible(st: TravelState): seq<Plan> {
    FilterPlans(st.plans, st.filters)
  }

  /** `clearFilters`: every criterion off. */
  function ClearFilters(st: TravelState): (r: TravelState)
    ensures r.filters.destination == [] && r.filters.gender == [] && r.filters.budget == []
    ensures |r.filters.interests| == 0 && r.filters.startDate.None? && r.filters.endDate.None?
    ensures r.(filters := st.filters) == st
  {
    st.(filters := NoFilters)
  }

  /** With the filters cleared every posted plan is listed, in order. */
  lemma ClearedFiltersShowAll(st: TravelState)
    ensures Visible(ClearFilters(st)) == st.plans
  {
  }

  // ----- interest toggles -----

  /** `handleInterestToggle` on the post form: a selected interest is
      removed; an unselected one is added at the end only while fewer than
      five are selected, and otherwise nothing happens. */
  function ToggleFormInterest(st: TravelState, interest: string): (r: TravelState)
    ensures var before, after := st.form.interests, r.form.interests;
      && (interest in before ==> interest !in after)
      && (interest !in before && |before| < MaxInterests ==> after == before + [interest])
      && (forall x :: x != interest ==> (x in after <==> x in before))
    ensures interest !in st.form.interests && |st.form.interests| >= MaxInterests ==> r == st
    ensures r.(form := st.form) == st && r.form.(interests := st.form.interests) == st.form
  {
    var interests := st.form.interests;
    if interest !in interests && |interests| >= MaxInterests then st
    else st.(form := st.form.(interests := Seqs.Toggle(interests, interest)))
  }

  /** Starting from a selection within the cap and without repeats, a
      toggle keeps it within five interests and without repeats. */
  lemma FormInterestsStayBounded(st: TravelState, interest: string)
    requires |st.form.interests| <= MaxInterests && Seqs.NoDuplicates(st.form.interests)
    ensures var r := ToggleFormInterest(st, interest).form.interests;
      |r| <= MaxInterests && Seqs.NoDuplicates(r)
  {
  }

  /** `handleFilterInterestToggle`: flips membership, with no cap. */
  function ToggleFilterInterest(st: TravelState, interest: string): (r: TravelState)
    ensures interest in r.filters.interests <==> interest !in st.filters.interests
    ensures r.(filters := st.filters) == st
  {
    st.(filters := st.filters.(interests := Seqs.Toggle(st.filters.interests, interest)))
  }

  /** Toggling a filter interest twice selects the same interests as
      before (possibly in another order). */
  lemma FilterToggleTwice(st: TravelState, interest: string)
    ensures var twice := ToggleFilterInterest(ToggleFilterInterest(st, interest), interest);
      forall x :: x in twice.filters.interests <==> x in st.filters.interests
  {
  }

  // ----- validation -----

  /** `validateForm`. The past-date check runs after the order check and
      compares the start with the current time; an empty start date never
      counts as past. The error of a later check replaces an earlier one on
      the same field. */
  function ValidateForm(form: TravelForm, now: int): (e: FormErrors)
    ensures e.destination.Some? <==> Text.Trim(form.destination) == []
    ensures e.destination.Some? ==> e.destination.value == "Destination is required"
    ensures form.startDate.None? ==> e.startDate == Some("Start date is required")
    ensures form.startDate.Some? ==>
      e.startDate == (if form.startDate.value < now then Some("Start date cannot be in the past") else None)
    ensures form.endDate.None? ==> e.endDate == Some("End date is required")
    ensures form.endDate.Some? && form.startDate.None? ==> e.endDate.None?
    ensures form.endDate.Some? && form.startDate.Some? ==>
      e.endDate == (if form.endDate.value <= form.startDate.value then Some("End date must be after start date") else None)
  {
    var dest := if Text.Trim(form.destination) == [] then Some("Destination is required") else None;
    var start := if form.startDate.None? then Some("Start date is required") else None;
    var end := if form.endDate.None? then Some("End date is required") else None;
    var end' :=
      if form.startDate.Some? && form.endDate.Some? && form.endDate.value <= form.startDate.value
      then Some("End date must be after start date") else end;
    var start' := if form.startDate.Some? && form.startDate.value < now then Some("Start date cannot be in the past") else start;
    FormErrors(dest, start', end')
  }

  predicate NoErrorsIn(e: FormErrors) {
    e.destination.None? && e.startDate.None? && e.endDate.None?
  }

  /** The form is accepted exactly when the destination has non-blank text,
      both dates are given, the end is after the start and the start is not
      before now. */
  lemma ValidIff(form: TravelForm, now: int)
    ensures NoErrorsIn(ValidateForm(form, now)) <==>
      && !Text.AllWhitespace(form.destination)
      && form.startDate.Some? && form.endDate.Some?
      && form.endDate.value > form.startDate.value
      && form.startDate.value >= now
  {
    Text.TrimEmptyIff(form.destination);
  }

  // ----- posting and connecting -----

  /** What the post request returned. */
  datatype PostOutcome = PostResponded(success: bool) | PostFailed(error: Option<string>)

  /** A handler's effect: the next state, a navigation, the form it posted
      and an alert it raised. */
  datatype Step = Step(state: TravelState, nav: Option<Route>, posted: Option<TravelForm>, alert: Option<string>)

  /** `handlePostTravelPlan`. Unauthenticated visitors go to the login page
      before any validation; an invalid form records its errors and posts
      nothing; a successful post resets the form and closes the post dialog. */
  function PostTravelPlan(st: TravelState, now: int, outcome: PostOutcome): (r: Step)
    ensures !st.isAuthenticated ==> r == Step(st, Some(Login), None, None)
    ensures st.isAuthenticated && !NoErrorsIn(ValidateForm(st.form, now)) ==>
      r == Step(st.(formErrors := ValidateForm(st.form, now)), None, None, None)
    ensures r.posted.Some? <==> st.isAuthenticated && NoErrorsIn(ValidateForm(st.form, now))
    ensures r.posted.Some? ==> r.posted.value == st.form && r.nav.None?
    ensures r.posted.Some? && outcome == PostResponded(true) ==>
      && r.state.form == EmptyForm && r.state.form.budget == "Flexible"
      && r.state.formErrors == NoErrors
      && r.state.showSuccessModal && !r.state.showPostModal
      && r.state.successMessage == PostedMessage
    ensures r.posted.Some? && outcome.PostFailed? ==>
      && r.alert == Some(OrDefault(outcome.error, "Failed to post travel plan"))
      && r.state == st.(formErrors := NoErrors)
    ensures r.alert.Some? ==> r.alert.value != ""
  {
    if !st.isAuthenticated then Step(st, Some(Login), None, None)
    else
      var errors := ValidateForm(st.form, now);
      var checked := st.(formErrors := errors);
      if !NoErrorsIn(errors) then Step(checked, None, None, None)
      else match outcome
        case PostResponded(success) =>
          if success then
            Step(checked.(successMessage := PostedMessage, showSuccessModal := true, showPostModal := false,
                          form := EmptyForm, formErrors := NoErrors), None, Some(st.form), None)
          else Step(checked, None, Some(st.form), None)
        case PostFailed(error) =>
          Step(checked, None, Some(st.form), Some(OrDefault(error, "Failed to post travel plan")))
  }

  /** What the connect request returned. */
  datatype ConnectOutcome =
    | ConnectResponded(success: bool, message: string)
    | ConnectFailed(isPremiumRequired: bool, error: Option<string>)

  datatype ConnectStep = ConnectStep(state: TravelState, nav: Option<Route>, connectTo: Option<string>, alert: Option<string>)

  const ConnectFailedMessage := "Failed to connect"

  /** `handleConnect(plan)`: login first, then the premium gate, and only
      then a request to the plan's poster. A plan without a populated poster
      has no id to address: building the URL throws before any request, and
      the failure handler, finding no server response, alerts the default
      message (the outcome is then never consulted). */
  function Connect(st: TravelState, plan: Plan, outcome: ConnectOutcome): (r: ConnectStep)
    ensures !st.isAuthenticated ==> r == ConnectStep(st, Some(Login), None, None)
    ensures st.isAuthenticated && !st.isPremium ==> r == ConnectStep(st.(showUpgradeModal := true), None, None, None)
    ensures st.isAuthenticated && st.isPremium && plan.posterId.None? ==>
      r == ConnectStep(st, None, None, Some(ConnectFailedMessage))
    ensures r.connectTo.Some? <==> st.isAuthenticated && st.isPremium && plan.posterId.Some?
    ensures r.connectTo.Some? ==> r.connectTo.value == plan.posterId.value && r.nav.None?
    ensures r.connectTo.Some? && outcome.ConnectResponded? && outcome.success ==>
      r.state == st.(successMessage := outcome.message, showSuccessModal := true)
    ensures r.connectTo.Some? && outcome.ConnectFailed? ==>
      if outcome.isPremiumRequired then r.state == st.(showUpgradeModal := true) && r.alert.None?
      else r.state == st && r.alert == Some(OrDefault(outcome.error, ConnectFailedMessage))
    ensures r.alert.Some? ==> r.alert.value != ""
  {
    if !st.isAuthenticated then ConnectStep(st, Some(Login), None, None)
    else if !st.isPremium then ConnectStep(st.(showUpgradeModal := true), None, None, None)
    else if plan.posterId.None? then ConnectStep(st, None, None, Some(ConnectFailedMessage))
    else
      var to := Some(plan.posterId.value);
      match outcome
        case ConnectResponded(success, message) =>
          if success then ConnectStep(st.(successMessage := message, showSuccessModal := true), None, to, None)
          else ConnectStep(st, None, to, None)
        case ConnectFailed(premiumRequired, error) =>
          if premiumRequired then ConnectStep(st.(showUpgradeModal := true), None, to, None)
          else ConnectStep(st, None, to, Some(OrDefault(error, ConnectFailedMessage)))
  }

  /** Whatever the plan and the outcome, connecting touches only the two
      dialogs and the success text, and the upgrade dialog opens exactly for
      a logged-in visitor who is not premium or whose request the server
      refused for want of premium. */
  lemma ConnectUpgradeIff(st: TravelState, plan: Plan, outcome: ConnectOutcome)
    requires !st.showUpgradeModal
    ensures var r := Connect(st, plan, outcome).state;
      && (r.showUpgradeModal <==>
            st.isAuthenticated
            && (!st.isPremium
                || (plan.posterId.Some? && outcome.ConnectFailed? && outcome.isPremiumRequired)))
      && r.(showUpgradeModal := st.showUpgradeModal, showSuccessModal := st.showSuccessModal,
            successMessage := st.successMessage) == st
  {
  }

  /** From a logged-in premium account, a click either sends the request or,
      for a plan without a poster, raises the default alert and changes
      nothing else. */
  lemma PremiumConnectAnswered(st: TravelState, plan: Plan, outcome: ConnectOutcome)
    requires st.isAuthenticated && st.isPremium
    ensures var r := Connect(st, plan, outcome);
      r.connectTo.Some? || r.alert.Some?
    ensures var r := Connect(st, plan, outcome);
      r.connectTo.None? ==> r.alert == Some(ConnectFailedMessage) && r.state == st
  {
  }
}

=== FILE: video_call.dfy ===
/** The video call screen, with WebRTC abstracted away: which resources the
    screen holds (peer connection, local stream and its tracks, the two video
    sinks, the duration interval), how the mute/camera buttons change the
    tracks, how signalling messages are addressed, and what `cleanupCall`
    releases. */
module VideoCall {
  import opened Wrappers
  import opened Routes
  import Text

  datatype TrackKind = Audio | Video

  /** A local media track: `enabled` is the mute switch, `live` turns false
      for good once `stop()` is called. */
  datatype Track = Track(kind: TrackKind, enabled: bool, live: bool)

  datatype CallState = CallState(
    peerOpen: bool,            // peerConnection.current holds an open connection
    tracks: seq<Track>,        // the tracks of the acquired local stream
    streamHeld: bool,          // localStreamRef.current is set
    localSinkAttached: bool,   // the local <video> has a srcObject
    remoteSinkAttached: bool,  // the remote <video> has a srcObject
    running: set<nat>,         // intervals started and not yet cleared
    timerRef: Option<nat>,     // timerRef.current
    nextTimerId: nat,          // the id the next setInterval will return
    callDuration: nat,
    isMuted: bool,
    isCameraOff: bool,
    isCallStarted: bool)

  /** A track that is no longer reachable through the stream ref has been
      stopped, and interval ids are handed out in increasing order. */
  predicate WellFormed(st: CallState) {
    && (!st.streamHeld ==> forall i :: 0 <= i < |st.tracks| ==> !st.tracks[i].live)
    && (forall id :: id in st.running ==> id < st.nextTimerId)
  }

  /** Nothing the screen acquired is still live. */
  predicate Released(st: CallState) {
    && !st.peerOpen
    && !st.streamHeld
    && !st.localSinkAttached
    && !st.remoteSinkAttached
    && st.running == {}
    && forall i :: 0 <= i < |st.tracks| ==> !st.tracks[i].live
  }

  // ---------------------------------------------------------------------
  // Setup and signalling

  /** The messages the screen emits on the socket. Session descriptions and
      candidates are opaque. */
  datatype Signal =
    | IceCandidate(to: string, candidate: string)
    | Offer(to: string, offer: string)
    | Answer(to: string, answer: string)

  datatype SetupStep = SetupStep(state: Option<CallState>, nav: Option<Route>, alert: Option<string>)

  const MissingUser := "Missing call user. Returning to chats."

  function Idle(): CallState {
    CallState(false, [], false, false, false, {}, None, 0, 0, false, false, false)
  }

  /** Mounting the screen with the `userId` query parameter. Without one the
      screen redirects to the chats list and no peer connection is built;
      with one it builds the connection and holds nothing else yet. */
  function Setup(userId: Option<string>): (r: SetupStep)
    ensures userId.None? || userId.value == "" ==> r == SetupStep(None, Some(Chats(None)), Some(MissingUser))
    ensures userId.Some? && userId.value != "" ==>
      && r.nav.None? && r.alert.None?
      && r.state == Some(Idle().(peerOpen := true))
      && WellFormed(r.state.value)
  {
    if userId.None? || userId.value == "" then SetupStep(None, Some(Chats(None)), Some(MissingUser))
    else SetupStep(Some(Idle().(peerOpen := true)), None, None)
  }

  /** `onicecandidate`: a discovered candidate is relayed to the peer named
      by `userId`; the end-of-candidates event (a null candidate) is not. */
  function OnIceCandidate(userId: string, candidate: Option<string>): (r: Option<Signal>)
    ensures r.Some? <==> candidate.Some?
    ensures r.Some? ==> r.value.IceCandidate? && r.value.to == userId && r.value.candidate == candidate.value
  {
    match candidate
    case None => None
    case Some(c) => Some(IceCandidate(userId, c))
  }

  /** `getUserMedia` resolved: the stream is held and shown in the local
      sink; its tracks start enabled and live. */
  function MediaAcquired(st: CallState, kinds: seq<TrackKind>): (r: CallState)
    requires WellFormed(st)
    ensures WellFormed(r) && r.streamHeld && r.localSinkAttached
    ensures |r.tracks| == |kinds|
    ensures forall i :: 0 <= i < |kinds| ==> r.tracks[i] == Track(kinds[i], true, true)
  {
    st.(tracks := seq(|kinds|, i requires 0 <= i < |kinds| => Track(kinds[i], true, true)),
        streamHeld := true, localSinkAttached := true)
  }

  /** `ontrack`: the remote stream is shown in the remote sink. */
  function RemoteTrackArrived(st: CallState): (r: CallState)
    ensures r.remoteSinkAttached
    ensures r.(remoteSinkAttached := st.remoteSinkAttached) == st
  {
    st.(remoteSinkAttached := true)
  }

  // ---------------------------------------------------------------------
  // The duration timer

  /** `startCallTimer()` as written: a new interval is started and its id
      overwrites `timerRef`, so an interval already running is forgotten but
      keeps firing. */
  function StartCallTimerAsWritten(st: CallState): (r: CallState)
    requires WellFormed(st)
    ensures WellFormed(r)
    ensures r.running == st.running + {st.nextTimerId} && r.timerRef == Some(st.nextTimerId)
  {
    st.(running := st.running + {st.nextTimerId}, timerRef := Some(st.nextTimerId),
        nextTimerId := st.nextTimerId + 1)
  }

  /** The interval `timerRef` names, as a set (empty for a null ref). */
  function RefSet(ref: Option<nat>): set<nat> {
    if ref.Some? then {ref.value} else {}
  }

  /** Every running interval is the one `timerRef` names, so clearing the
      ref stops all of them. */
  predicate TimerTracked(st: CallState) {
    st.running <= RefSet(st.timerRef)
  }

  /** `startCallTimer()` as intended: the interval `timerRef` names is cleared
      before the new one replaces it, so at most one interval ever runs. */
  function StartCallTimer(st: CallState): (r: CallState)
    requires WellFormed(st)
    ensures WellFormed(r)
    ensures r.running == (st.running - RefSet(st.timerRef)) + {st.nextTimerId}
    ensures r.timerRef == Some(st.nextTimerId)
    ensures TimerTracked(st) ==> TimerTracked(r) && |r.running| == 1
    ensures r.callDuration == st.callDuration && r.tracks == st.tracks
  {
    var r := st.(running := (st.running - RefSet(st.timerRef)) + {st.nextTimerId},
                 timerRef := Some(st.nextTimerId), nextTimerId := st.nextTimerId + 1);
    assert TimerTracked(st) ==> r.running == {st.nextTimerId};
    r
  }

  /** One tick of interval `id`: a running interval adds exactly one second
      to the displayed duration; a cleared one never fires. */
  function Tick(st: CallState, id: nat): (r: CallState)
    ensures id in st.running ==> r.callDuration == st.callDuration + 1
    ensures id !in st.running ==> r == st
    ensures r.(callDuration := st.callDuration) == st
  {
    if id in st.running then st.(callDuration := st.callDuration + 1) else st
  }

  /** `onnegotiationneeded`: the offer goes to `userId`, the call counts as
      started and the duration timer starts. */
  function OnNegotiationNeeded(st: CallState, userId: string, offer: string): (r: (CallState, Signal))
    requires WellFormed(st)
    ensures r.1 == Offer(userId, offer)
    ensures r.0.isCallStarted && WellFormed(r.0)
    ensures TimerTracked(st) ==> TimerTracked(r.0)
  {
    (StartCallTimer(st).(isCallStarted := true), Offer(userId, offer))
  }

  /** An `offer` from `from` arrived: the answer goes back to `from` (not to
      the page's own `userId`), the call counts as started and the timer
      starts. */
  function OnOffer(st: CallState, from: string, answer: string): (r: (CallState, Signal))
    requires WellFormed(st)
    ensures r.1 == Answer(from, answer)
    ensures r.0.isCallStarted && WellFormed(r.0)
    ensures TimerTracked(st) ==> TimerTracked(r.0)
  {
    (StartCallTimer(st).(isCallStarted := true), Answer(from, answer))
  }

  /** An `answer` arrived for our offer: the timer is (re)started. */
  function OnAnswer(st: CallState): (r: CallState)
    requires WellFormed(st)
    ensures WellFormed(r) && r.isCallStarted == st.isCallStarted
    ensures TimerTracked(st) ==> TimerTracked(r)
  {
    StartCallTimer(st)
  }

  // ---------------------------------------------------------------------
  // Controls

  /** The position of the first track of `kind`, as `getAudioTracks()[0]` and
      `getVideoTracks()[0]` pick it. */
  function FirstOfKind(tracks: seq<Track>, kind: TrackKind): (r: Option<nat>)
    ensures r.Some? ==> r.value < |tracks| && tracks[r.value].kind == kind
    ensures r.Some? ==> forall j :: 0 <= j < r.value ==> tracks[j].kind != kind
    ensures r.None? ==> forall j :: 0 <= j < |tracks| ==> tracks[j].kind != kind
  {
    if |tracks| == 0 then None
    else if tracks[0].kind == kind then Some(0)
    else
      match FirstOfKind(tracks[1..], kind)
      case None => None
      case Some(i) => Some(i + 1)
  }

  /** Flips `enabled` on the first track of `kind` and leaves every other
      track alone. */
  function FlipFirst(tracks: seq<Track>, kind: TrackKind): (r: seq<Track>)
    ensures |r| == |tracks|
    ensures FirstOfKind(tracks, kind).None? ==> r == tracks
    ensures FirstOfKind(tracks, kind).Some? ==>
      var i := FirstOfKind(tracks, kind).value;
      r == tracks[i := tracks[i].(enabled := !tracks[i].enabled)]
  {
    match FirstOfKind(tracks, kind)
    case None => tracks
    case Some(i) => tracks[i := tracks[i].(enabled := !tracks[i].enabled)]
  }

  /** `toggleMute()`: with a stream that has an audio track, that first audio
      track is switched on or off and `isMuted` reports the new state;
      otherwise nothing changes. */
  function ToggleMute(st: CallState): (r: CallState)
    requires WellFormed(st)
    ensures WellFormed(r)
    ensures !st.streamHeld || FirstOfKind(st.tracks, Audio).None? ==> r == st
    ensures st.streamHeld && FirstOfKind(st.tracks, Audio).Some? ==>
      var i := FirstOfKind(st.tracks, Audio).value;
      && |r.tracks| == |st.tracks|
      && r.tracks[i].enabled == !st.tracks[i].enabled
      && r.isMuted == !r.tracks[i].enabled
      && (forall j :: 0 <= j < |st.tracks| && j != i ==> r.tracks[j] == st.tracks[j])
      && r.tracks[i].(enabled := st.tracks[i].enabled) == st.tracks[i]
      && r.(tracks := st.tracks, isMuted := st.isMuted) == st
  {
    if st.streamHeld && FirstOfKind(st.tracks, Audio).Some? then
      var i := FirstOfKind(st.tracks, Audio).value;
      st.(tracks := FlipFirst(st.tracks, Audio), isMuted := st.tracks[i].enabled)
    else st
  }

  /** `toggleCamera()`: the same for the first video track and `isCameraOff`. */
  function ToggleCamera(st: CallState): (r: CallState)
    requires WellFormed(st)
    ensures WellFormed(r)
    ensures !st.streamHeld || FirstOfKind(st.tracks, Video).None? ==> r == st
    ensures st.streamHeld && FirstOfKind(st.tracks, Video).Some? ==>
      var i := FirstOfKind(st.tracks, Video).value;
      && |r.tracks| == |st.tracks|
      && r.tracks[i].enabled == !st.tracks[i].enabled
      && r.isCameraOff == !r.tracks[i].enabled
      && (forall j :: 0 <= j < |st.tracks| && j != i ==> r.tracks[j] == st.tracks[j])
      && r.tracks[i].(enabled := st.tracks[i].enabled) == st.tracks[i]
      && r.(tracks := st.tracks, isCameraOff := st.isCameraOff) == st
  {
    if st.streamHeld && FirstOfKind(st.tracks, Video).Some? then
      var i := FirstOfKind(st.tracks, Video).value;
      st.(tracks := FlipFirst(st.tracks, Video), isCameraOff := st.tracks[i].enabled)
    else st
  }

  /** Pressing mute twice gives the tracks back exactly as they were, and the
      indicator then agrees with the audio track. */
  lemma MuteTwiceRestoresTracks(st: CallState)
    requires WellFormed(st)
    ensures ToggleMute(ToggleMute(st)).tracks == st.tracks
    ensures st.streamHeld && FirstOfKind(st.tracks, Audio).Some? ==>
      ToggleMute(ToggleMute(st)).isMuted == !st.tracks[FirstOfKind(st.tracks, Audio).value].enabled
  {
    if st.streamHeld && FirstOfKind(st.tracks, Audio).Some? {
      var once := ToggleMute(st);
      var i := FirstOfKind(st.tracks, Audio).value;
      assert FirstOfKind(once.tracks, Audio) == Some(i) by {
        FirstOfKindIgnoresEnabled(st.tracks, once.tracks, Audio);
      }
    }
  }

  /** Pressing the camera button twice gives the tracks back as they were. */
  lemma CameraTwiceRestoresTracks(st: CallState)
    requires WellFormed(st)
    ensures ToggleCamera(ToggleCamera(st)).tracks == st.tracks
    ensures st.streamHeld && FirstOfKind(st.tracks, Video).Some? ==>
      ToggleCamera(ToggleCamera(st)).isCameraOff == !st.tracks[FirstOfKind(st.tracks, Video).value].enabled
  {
    if st.streamHeld && FirstOfKind(st.tracks, Video).Some? {
      var once := ToggleCamera(st);
      FirstOfKindIgnoresEnabled(st.tracks, once.tracks, Video);
    }
  }

  /** Which track is first of a kind depends only on the kinds. */
  lemma {:induction false} FirstOfKindIgnoresEnabled(a: seq<Track>, b: seq<Track>, kind: TrackKind)
    requires |a| == |b|
    requires forall i :: 0 <= i < |a| ==> a[i].kind == b[i].kind
    ensures FirstOfKind(a, kind) == FirstOfKind(b, kind)
  {
    if |a| > 0 {
      FirstOfKindIgnoresEnabled(a[1..], b[1..], kind);
    }
  }

  // ---------------------------------------------------------------------
  // Teardown

  /** `cleanupCall()`: closes and drops the peer connection, stops every
      local track and drops the stream, detaches both video sinks and clears
      the interval `timerRef` names. Any other interval is left running. */
  function CleanupCall(st: CallState): (r: CallState)
    requires WellFormed(st)
    ensures WellFormed(r)
    ensures !r.peerOpen && !r.streamHeld && !r.localSinkAttached && !r.remoteSinkAttached
    ensures forall i :: 0 <= i < |r.tracks| ==> !r.tracks[i].live
    ensures |r.tracks| == |st.tracks|
    ensures forall i :: 0 <= i < |st.tracks| ==> r.tracks[i].(live := st.tracks[i].live) == st.tracks[i]
    ensures r.running == st.running - RefSet(st.timerRef)
    ensures TimerTracked(st) ==> Released(r)
    ensures r.callDuration == st.callDuration && r.timerRef == st.timerRef
  {
    var tracks := if st.streamHeld then seq(|st.tracks|, i requires 0 <= i < |st.tracks| => st.tracks[i].(live := false))
                  else st.tracks;
    st.(peerOpen := false, tracks := tracks, streamHeld := false,
        localSinkAttached := false, remoteSinkAttached := false,
        running := st.running - RefSet(st.timerRef))
  }

  /** A second `cleanupCall()` finds nothing left to release. */
  lemma CleanupIdempotent(st: CallState)
    requires WellFormed(st)
    ensures CleanupCall(CleanupCall(st)) == CleanupCall(st)
  {
  }

  /** What `endCall` does besides releasing the call: the screen shows that
      the call is ending, and (after a delay that is not timed here) goes
      back to the chats list. */
  datatype EndStep = EndStep(state: CallState, ending: bool, nav: Route)

  /** `endCall()`: mark the call as ending, release it, then leave for the
      chats list. The duration shown is kept. */
  function EndCall(st: CallState): (r: EndStep)
    requires WellFormed(st)
    ensures r.ending && r.nav == Chats(None)
    ensures !r.state.peerOpen && !r.state.streamHeld
    ensures !r.state.localSinkAttached && !r.state.remoteSinkAttached
    ensures r.state.callDuration == st.callDuration
    ensures TimerTracked(st) ==> Released(r.state)
  {
    EndStep(CleanupCall(st), true, Chats(None))
  }

  /** Leaving the screen after hanging up runs the unmount cleanup as well;
      it finds nothing left to release. */
  lemma EndThenUnmount(st: CallState)
    requires WellFormed(st)
    ensures WellFormed(EndCall(st).state)
    ensures CleanupCall(EndCall(st).state) == EndCall(st).state
  {
    CleanupIdempotent(st);
  }

  /** The call's event handlers, with the timer started as intended. */
  datatype CallEvent =
    | NegotiationNeeded(offer: string)
    | OfferArrived(from: string, answer: string)
    | AnswerArrived
    | Media(kinds: seq<TrackKind>)
    | RemoteTrack
    | TimerTick(id: nat)
    | MuteClicked
    | CameraClicked

  function Apply(st: CallState, userId: string, e: CallEvent): (r: CallState)
    requires WellFormed(st)
    ensures WellFormed(r)
    ensures TimerTracked(st) ==> TimerTracked(r)
  {
    match e
    case NegotiationNeeded(offer) => OnNegotiationNeeded(st, userId, offer).0
    case OfferArrived(from, answer) => OnOffer(st, from, answer).0
    case AnswerArrived => OnAnswer(st)
    case Media(kinds) => MediaAcquired(st, kinds)
    case RemoteTrack => RemoteTrackArrived(st)
    case TimerTick(id) => Tick(st, id)
    case MuteClicked => ToggleMute(st)
    case CameraClicked => ToggleCamera(st)
  }

  function ApplyAll(st: CallState, userId: string, events: seq<CallEvent>): (r: CallState)
    requires WellFormed(st)
    ensures WellFormed(r)
    decreases |events|
  {
    if |events| == 0 then st else ApplyAll(Apply(st, userId, events[0]), userId, events[1..])
  }

  /** Whatever happened during the call, in whatever order, hanging up
      releases everything: no connection, no live track, no sink and no
      running interval remain. */
  lemma {:induction false} HangupReleasesEverything(userId: string, events: seq<CallEvent>)
    requires userId != ""
    ensures var st := Setup(Some(userId)).state.value;
      Released(CleanupCall(ApplyAll(st, userId, events)))
  {
    var st := Setup(Some(userId)).state.value;
    ApplyAllKeepsTimerTracked(st, userId, events);
  }

  lemma {:induction false} ApplyAllKeepsTimerTracked(st: CallState, userId: string, events: seq<CallEvent>)
    requires WellFormed(st) && TimerTracked(st)
    ensures TimerTracked(ApplyAll(st, userId, events))
    decreases |events|
  {
    if |events| > 0 {
      ApplyAllKeepsTimerTracked(Apply(st, userId, events[0]), userId, events[1..]);
    }
  }

  /** The outbound caller as written: the offer is sent (timer one) and the
      answer arrives (timer two). While the call lasts both timers tick, so
      the duration rises by two each second; hanging up then clears only
      timer two, and timer one keeps adding seconds to the duration. */
  lemma OutboundCallLeaksTimer(userId: string)
    requires userId != ""
    ensures var st := Setup(Some(userId)).state.value;
      var sent := StartCallTimerAsWritten(st.(isCallStarted := true));
      var answered := StartCallTimerAsWritten(sent);
      var ended := CleanupCall(answered);
      && answered.running == {0, 1}
      && Tick(Tick(answered, 0), 1).callDuration == answered.callDuration + 2
      && ended.running == {0}
      && Tick(ended, 0).callDuration == ended.callDuration + 1
  {
  }

  // ---------------------------------------------------------------------
  // The timer display

  /** `secs.toString().padStart(2, '0')` for a seconds value: always two
      digits, reading back as the same number. */
  function TwoDigits(n: nat): (r: string)
    requires n < 60
    ensures |r| == 2 && Text.AllDigits(r)
    ensures Text.DecimalValue(r) == n
  {
    PaddedDecimalValue(n);
    Text.PadStart(Text.Decimal(n), 2, '0')
  }

  lemma PaddedDecimalValue(n: nat)
    requires n < 100
    ensures var r := Text.PadStart(Text.Decimal(n), 2, '0');
      |r| == 2 && Text.AllDigits(r) && Text.DecimalValue(r) == n
  {
    var d := Text.Decimal(n);
    Text.DecimalBelow100(n);
    Text.DecimalRoundTrip(n);
    var r := Text.PadStart(d, 2, '0');
    if |d| == 1 {
      assert r == ['0'] + d;
      assert r[..1] == ['0'] && r[1] == d[0];
      assert d[..0] == [];
      assert Text.DecimalValue(d) == Text.DigitValue(d[0]);
      assert Text.DecimalValue(r) == Text.DecimalValue(['0']) * 10 + Text.DigitValue(d[0]);
    }
  }

  /** `formatDuration(seconds)`: whole minutes, a colon, and the remaining
      seconds as two digits. */
  function FormatDuration(seconds: nat): string {
    Text.Decimal(seconds / 60) + ":" + TwoDigits(seconds % 60)
  }

  /** The display is the decimal minutes, a colon, and the remaining
      seconds as two digits. */
  lemma FormatDurationShape(seconds: nat)
    ensures var r := FormatDuration(seconds);
      && |r| >= 4 && r[|r| - 3] == ':'
      && r[..|r| - 3] == Text.Decimal(seconds / 60)
      && r[|r| - 2..] == TwoDigits(seconds % 60)
  {
    JoinParts(Text.Decimal(seconds / 60), TwoDigits(seconds % 60));
  }

  lemma JoinParts(m: string, ss: string)
    requires |m| >= 1 && |ss| == 2
    ensures var r := m + ":" + ss;
      |r| >= 4 && r[|r| - 3] == ':' && r[..|r| - 3] == m && r[|r| - 2..] == ss
  {
    var r := m + ":" + ss;
    assert r[..|r| - 3] == m;
    assert r[|r| - 2..] == ss;
  }

  /** Reads a `m:ss` display back as a number of seconds. */
  function ParseDuration(t: string): Option<nat> {
    if |t| >= 4 && t[|t| - 3] == ':' && Text.AllDigits(t[..|t| - 3]) && Text.AllDigits(t[|t| - 2..]) then
      Some(Text.DecimalValue(t[..|t| - 3]) * 60 + Text.DecimalValue(t[|t| - 2..]))
    else None
  }

  /** The display loses nothing: minutes times sixty plus the two-digit
      seconds gives back the duration. */
  lemma FormatDurationRoundTrip(seconds: nat)
    ensures ParseDuration(FormatDuration(seconds)) == Some(seconds)
  {
    var m, sec := seconds / 60, seconds % 60;
    MinutesAndSeconds(seconds);
    JoinedPartsParse(m, sec);
    SameDisplay(seconds, m, sec);
  }

  lemma SameDisplay(seconds: nat, m: nat, sec: nat)
    requires m == seconds / 60 && sec == seconds % 60 && sec < 60
    ensures FormatDuration(seconds) == Text.Decimal(m) + ":" + TwoDigits(sec)
  {
  }


  /** Any minutes value and any seconds value below sixty, joined as the
      display joins them, parse back to their combined duration. */
  lemma JoinedPartsParse(m: nat, sec: nat)
    requires sec < 60
    ensures ParseDuration(Text.Decimal(m) + ":" + TwoDigits(sec)) == Some(m * 60 + sec)
  {
    var t := Text.Decimal(m) + ":" + TwoDigits(sec);
    JoinParts(Text.Decimal(m), TwoDigits(sec));
    Text.DecimalRoundTrip(m);
    ParseParts(t, m, sec);
  }

  lemma MinutesAndSeconds(seconds: nat)
    ensures (seconds / 60) * 60 + seconds % 60 == seconds && seconds % 60 < 60
  {
  }

  /** A display whose two parts read as `minutes` and `secs` parses to
      their combined duration. */
  lemma ParseParts(t: string, minutes: nat, secs: nat)
    requires |t| >= 4 && t[|t| - 3] == ':'
    requires Text.AllDigits(t[..|t| - 3]) && Text.DecimalValue(t[..|t| - 3]) == minutes
    requires Text.AllDigits(t[|t| - 2..]) && Text.DecimalValue(t[|t| - 2..]) == secs
    ensures ParseDuration(t) == Some(minutes * 60 + secs)
  {
  }

}

=== FILE: wrappers.dfy ===
/** The optional value that stands for JavaScript's `null`/`undefined`
    wherever the client reads a field that may be missing. */
module Wrappers {

  datatype Option<+T> = None | Some(value: T) {

    /** Returns the wrapped value, or `default` when there is none. */
    function GetOr(default: T): T {
      match this
      case Some(v) => v
      case None => default
    }
  }

  /** `s || d` for a string read off a response: a missing value and the
      empty string (which JavaScript's `||` treats as false) both give `d`;
      any other string is kept. */
  function OrDefault(o: Option<string>, d: string): (r: string)
    ensures o.Some? && o.value != "" ==> r == o.value
    ensures o.None? || o.value == "" ==> r == d
    ensures r == "" ==> d == ""
  {
    if o.Some? && o.value != "" then o.value else d
  }
}
